=== FILE: README.md ===
# No Longer Evil Thermostat — a Dafny model of the integration's core

This project models the pure logic of the Home Assistant integration for
Nest thermostats running No Longer Evil firmware, which talk to Home
Assistant over MQTT. It covers five pieces:

- the MQTT client's callback registry, its inbound fan-out, its publishing
  and its topic construction;
- the climate entity, which reads temperatures and the mode, derives the
  HVAC action (off / idle / heating / cooling) against a 0.5-degree
  threshold, and publishes set-points and modes;
- the fan entity and the occupancy sensor, which coerce payloads to
  booleans in the same way (the sensor negates the "away" flag);
- the configuration flow's device step: validation order, accumulation of
  devices and the entry title;
- the wiring of one shared client to the entities of every configured
  device, with end-to-end routing and fire-and-forget command properties.

Everything is a pure function over immutable datatypes. The client is a
value holding its topic prefix, whether a paho client exists, the
topic-to-callbacks map and the trace of published messages. Inbound
dispatch returns the sequence of callback invocations it makes.
Temperatures are `real`. The three Python runtime functions the handlers
depend on are the function-valued fields of `Payload.Runtime`: `json.loads`,
`float()` and `str()` of a float.

Modules: `Wrappers` (Option), `Text` (ASCII case mapping, decimal
rendering, separator counting), `Payload` (payload decoding and boolean
coercion), `MqttClient`, `Climate`, `Fan`, `Occupancy`, `ConfigFlow` and
`Integration`.

Behaviour of the code worth noting:

- Dispatch does not isolate a failing callback. `_on_message` has no
  `try`, so an exception would stop the remaining callbacks. The handlers
  catch `ValueError` and `TypeError` only. The model treats every parse
  failure as one of those, so in the model a dispatch always runs every
  call (see "Left out" for the failures this misses).
- Boolean coercion has a branch for an already-boolean value. That branch
  cannot be reached from wire text (`Payload.DecodeNeverBool`).
- Availability is subscribed at the broker, but no entity registers a
  callback for it, so there is no availability state.
- There is no function that parses a topic back into its parts.
  Injectivity of topic construction is proved instead
  (`MqttClient.GetTopicInjective`).

## Model

| member | source | states |
|---|---|---|
| `Payload.Decode` | custom_components/nolongerevil_thermostat/fan.py:76 | text not starting with `{`/`[` stays a string; structured text fails exactly when `json.loads` does and otherwise is `json.loads`'s own value; a decoded value is always a string, list or object |
| `Payload.DecodeBool` | custom_components/nolongerevil_thermostat/fan.py:76-83 | plain text is true iff its lower-cased form is "true", "1" or "on"; a decoded list/object is true iff non-empty; malformed structured text gives no value |
| `Payload.DecodeNeverBool` | custom_components/nolongerevil_thermostat/fan.py:78-79 | the `isinstance(value, bool)` branch is unreachable from wire text |
| `Payload.PlainTextReadings` | custom_components/nolongerevil_thermostat/fan.py:80-81 | "ON", "True", "On", "1" read true; "", "0", "false", "yes" read false |
| `MqttClient.NewClient` | custom_components/nolongerevil_thermostat/__init__.py:73-85 | a new client has no paho client, no callbacks, nothing sent, and the configured prefix or "nest" |
| `MqttClient.GetTopic` | custom_components/nolongerevil_thermostat/__init__.py:184-185 | the topic starts with the prefix and '/', ends with '/' and the field, and is three separators longer than its four parts |
| `MqttClient.GetSetTopic` | custom_components/nolongerevil_thermostat/__init__.py:187-188 | `get_set_topic(s,o,f)` is `get_topic(s,o,f)` followed by "/set" |
| `MqttClient.FieldSeparates` | custom_components/nolongerevil_thermostat/__init__.py:184-185 | two topics with '/'-free fields are equal only if their fields are, whatever the serials and object types hold |
| `MqttClient.SerialSeparates` | custom_components/nolongerevil_thermostat/__init__.py:184-185 | for one object type and field, the topic determines the serial, whatever characters it holds |
| `MqttClient.GetTopicInjective` | custom_components/nolongerevil_thermostat/__init__.py:184-185 | under one prefix, equal topics come from equal (serial, object type, field) when serial and object type contain no '/' |
| `MqttClient.TopicSlashCounts` | custom_components/nolongerevil_thermostat/__init__.py:184-188 | state topics have 3 more '/' than the prefix, command topics 4, the availability topic 2 |
| `MqttClient.CommandTopicIsNotStateTopic` | custom_components/nolongerevil_thermostat/__init__.py:184-188 | a command topic never equals an availability topic, nor a state topic whose field is '/'-free and not "set", of the same prefix, for any serials |
| `MqttClient.Subscribe` | custom_components/nolongerevil_thermostat/__init__.py:166-169 | the callback is appended to the end of its topic's list, earlier entries kept, no de-duplication, every other topic's list unchanged |
| `MqttClient.SubscribeAllRecords` | custom_components/nolongerevil_thermostat/__init__.py:166-169 | after any series of subscriptions a topic's list is its old list followed by exactly the callbacks subscribed under that identical string, in order |
| `MqttClient.OnMessage` | custom_components/nolongerevil_thermostat/__init__.py:126-137 | one call per registered callback of the identical topic, in registration order, each with the same topic and payload; an unregistered topic gives no calls |
| `MqttClient.DispatchFollowsSubscriptions` | custom_components/nolongerevil_thermostat/__init__.py:135-137 | dispatch after subscriptions is the old dispatch followed by one call per matching subscription, in subscription order |
| `MqttClient.Render` | custom_components/nolongerevil_thermostat/__init__.py:176 | strings pass unchanged; booleans become "True"/"False"; an integer becomes a '-' exactly when negative, followed by decimal digits; a float becomes `str()` of it |
| `MqttClient.RenderFaithful` | custom_components/nolongerevil_thermostat/__init__.py:176 | strings are sent unchanged; `True`/`False` become "True"/"False"; an integer's digits parse back to its magnitude; distinct booleans and distinct integers render differently |
| `MqttClient.Publish` | custom_components/nolongerevil_thermostat/__init__.py:171-182 | without a paho client nothing is sent; otherwise exactly one message with the rendered payload at QoS 1 is appended; callbacks untouched |
| `MqttClient.DeviceTopicsAreEntityTopics` | custom_components/nolongerevil_thermostat/__init__.py:148-157 | seven of the eight broker topics equal `get_topic` of the entity fields; the eighth is `prefix/serial/availability` |
| `MqttClient.DeviceTopicsDistinct` | custom_components/nolongerevil_thermostat/__init__.py:148-157 | a device's eight topics are pairwise distinct, whatever characters the serial holds |
| `MqttClient.BrokerTopicsMembership` | custom_components/nolongerevil_thermostat/__init__.py:143-157 | a topic is subscribed iff it is one of the eight topics of some device that has a serial |
| `MqttClient.SubscribeToTopics` | custom_components/nolongerevil_thermostat/__init__.py:139-164 | nothing without a paho client; otherwise the eight topics of each device with a non-empty serial, device by device, so 8 per such device |
| `Climate.ModeFromNest` | nolongerevil_thermostat/climate.py:45-50 | exactly "heat", "cool", "range" give HEAT, COOL, HEAT_COOL; every other string, any other case included, gives OFF |
| `Climate.ModeToNest` | nolongerevil_thermostat/climate.py:52-57 | a supported mode is published under the name that maps back to it; every other HA mode publishes "off" |
| `Climate.ModeMapsInverse` | nolongerevil_thermostat/climate.py:45-57 | the Nest-to-HA and HA-to-Nest maps are mutual inverses on the four Nest mode names |
| `Climate.ModeLookupIsCaseSensitive` | nolongerevil_thermostat/climate.py:213 | "HEAT", "Cool", "Range", "heat_cool" and "" all read as OFF |
| `Climate.DeriveAction` | nolongerevil_thermostat/climate.py:220-245 | OFF iff mode OFF; HEATING iff heating mode, both temperatures known and target − current > 0.5; COOLING iff cooling mode, both known and target − current < −0.5; IDLE otherwise |
| `Climate.ActionProperties` | nolongerevil_thermostat/climate.py:222-245 | an unknown temperature gives IDLE; a gap of at most 0.5 either way, 0.5 included, gives IDLE; HEAT never cools and COOL never heats |
| `Climate.ActionExamples` | nolongerevil_thermostat/climate.py:228-243 | 0.3 above is IDLE, 0.6 above HEATING, 0.6 below COOLING, exactly 0.5 above IDLE |
| `Climate.Init` | nolongerevil_thermostat/climate.py:96-111 | temperatures unknown, mode and action OFF; Fahrenheit iff the unit (default "celsius") lower-cases to "fahrenheit" |
| `Climate.ParseTemperature` | nolongerevil_thermostat/climate.py:154-155 | structured text never yields a temperature; plain text yields what `float()` yields |
| `Climate.HandleCurrentTemperature` | nolongerevil_thermostat/climate.py:151-164 | an unparsable payload changes nothing; otherwise only the current temperature changes and the action is re-derived |
| `Climate.HandleTargetTemperature` | nolongerevil_thermostat/climate.py:166-178 | an unparsable payload changes nothing; otherwise only the target changes and the action is left as it was |
| `Climate.HandleTargetTemperatureLow` | nolongerevil_thermostat/climate.py:180-192 | an unparsable payload changes nothing; otherwise only the low set-point changes |
| `Climate.HandleTargetTemperatureHigh` | nolongerevil_thermostat/climate.py:194-206 | an unparsable payload changes nothing; otherwise only the high set-point changes |
| `Climate.HandleMode` | nolongerevil_thermostat/climate.py:208-218 | malformed structured text changes nothing; plain text selects its mode, decoded structure selects OFF; temperatures untouched and the action re-derived |
| `Climate.RangeUpdatesKeepConsistency` | nolongerevil_thermostat/climate.py:180-206 | low and high updates keep an up-to-date action up to date |
| `Climate.TargetUpdateLeavesActionStale` | nolongerevil_thermostat/climate.py:166-178 | a target update alone can leave the action stale (IDLE reported where HEATING is due) |
| `Climate.Subscriptions` | nolongerevil_thermostat/climate.py:129-149 | five registrations, each on `get_topic` of one entity field, with the current-temperature, target, low, high and mode handlers in that order |
| `Climate.SetTemperature` | nolongerevil_thermostat/climate.py:293-324 | one QoS 1 message per present, non-zero argument (target, low, high, in that order) to `prefix/serial/shared/<field>/set`; callbacks untouched |
| `Climate.SetHvacMode` | nolongerevil_thermostat/climate.py:326-335 | one message with the Nest mode name to the `target_temperature_type` command topic |
| `Climate.ModeCommandEcho` | nolongerevil_thermostat/climate.py:326-335 | a mode command echoed back on the state topic puts the entity in the requested supported mode with an up-to-date action |
| `Climate.TargetCommandEcho` | nolongerevil_thermostat/climate.py:293-301 | a target command echoed back stores exactly the requested value, given that `float()` reads back `str()` of that value |
| `Fan.Init` | custom_components/nolongerevil_thermostat/fan.py:56-60 | a new fan is off |
| `Fan.SubscribedTopic` | custom_components/nolongerevil_thermostat/fan.py:70-72 | the fan listens on `get_topic(serial, "device", "fan_timer_active")` |
| `Fan.HandleFanState` | custom_components/nolongerevil_thermostat/fan.py:74-92 | plain text turns it on iff it lower-cases to "true", "1" or "on"; decoded structure iff non-empty; malformed structure changes nothing |
| `Fan.FanPayloadExamples` | custom_components/nolongerevil_thermostat/fan.py:76-81 | "ON" and "True" turn it on; "", "0", "false", "yes" turn it off |
| `Fan.TurnOn` | custom_components/nolongerevil_thermostat/fan.py:112-122 | publishes "True" to `prefix/serial/device/fan_timer_active/set` at QoS 1 |
| `Fan.TurnOff` | custom_components/nolongerevil_thermostat/fan.py:124-129 | publishes "False" to `prefix/serial/device/fan_timer_active/set` at QoS 1 |
| `Fan.CommandEcho` | custom_components/nolongerevil_thermostat/fan.py:112-129 | the payloads the fan publishes read back as on and off respectively |
| `Occupancy.Init` | nolongerevil_thermostat/binary_sensor.py:68-69 | a new sensor reports occupied |
| `Occupancy.SubscribedTopic` | nolongerevil_thermostat/binary_sensor.py:74-77 | the sensor listens on `get_topic(serial, "device", "away")` |
| `Occupancy.HandleAwayState` | nolongerevil_thermostat/binary_sensor.py:79-102 | after a decoded payload, occupied is the negation of the coerced away value; away strings "true", "1", "on" in any case mean not occupied; an empty structure means occupied; malformed structure changes nothing |
| `Occupancy.OccupancyMirrorsFan` | nolongerevil_thermostat/binary_sensor.py:82-93 | for any payload that decodes, occupied is the negation of the fan's resulting on-state |
| `Occupancy.AwayExamples` | nolongerevil_thermostat/binary_sensor.py:84-93 | "true" and "1" mean not occupied; "false", "0" and "" mean occupied |
| `ConfigFlow.NewFlow` | nolongerevil_thermostat/config_flow.py:48-51 | a new flow holds no broker settings and no devices |
| `ConfigFlow.ValidationError` | nolongerevil_thermostat/config_flow.py:79-85 | name_required, then serial_required, then serial_invalid for a length other than 8; only the first failure is reported; none iff all three checks pass |
| `ConfigFlow.EntryOf` | nolongerevil_thermostat/config_flow.py:86-96 | the stored device has the given name, the upper-cased serial (8 characters, no lower-case letter) and the unit defaulting to "celsius" |
| `ConfigFlow.Title` | nolongerevil_thermostat/config_flow.py:105 | the title is "No Longer Evil Thermostat (", decimal digits that read back as the device count, " device", an "s" iff the count is above one, and ")" |
| `ConfigFlow.TitleDeterminesCount` | nolongerevil_thermostat/config_flow.py:105 | different device counts give different titles |
| `ConfigFlow.StepDevice` | nolongerevil_thermostat/config_flow.py:72-128 | an invalid submission re-shows the form with its error and keeps the list; a valid one appends exactly one device, then re-shows the form with "add another" or creates the entry with every device in order |
| `ConfigFlow.StepUser` | nolongerevil_thermostat/config_flow.py:53-70 | without input the broker form is shown; with input the settings are stored and the device form is shown |
| `ConfigFlow.SubmitAccumulates` | nolongerevil_thermostat/config_flow.py:86-100 | over any series of submissions the device list grows by exactly the valid ones, in order, and the broker settings are kept |
| `ConfigFlow.FlowCreatesEntry` | nolongerevil_thermostat/config_flow.py:99-107 | broker settings, any submissions, then a final valid one create an entry with the settings, every accepted device in order, and a title counting them |
| `Integration.Setup` | custom_components/nolongerevil_thermostat/__init__.py:34-49 | one client with the entry's prefix, and one freshly initialised climate, fan and sensor per entry, all registered on it; nothing published |
| `Integration.Deliver` | custom_components/nolongerevil_thermostat/__init__.py:126-137 | delivering an inbound message leaves the client unchanged and keeps the wiring; what it does to the devices is stated by `Integration.FieldMessageReachesItsEntities` |
| `Integration.WiredDispatch` | custom_components/nolongerevil_thermostat/__init__.py:126-137 | on a wired client, dispatch calls exactly the entity handlers registered under the topic, in registration order |
| `Integration.ForeignTopicIgnored` | custom_components/nolongerevil_thermostat/__init__.py:135-137 | a message on a topic nobody registered changes no state |
| `Integration.RegisteredTopicsAreSubscribed` | custom_components/nolongerevil_thermostat/__init__.py:143-157 | every topic an entity registers for a device with a serial is among the topics subscribed at the broker |
| `Integration.FieldMatching` | custom_components/nolongerevil_thermostat/__init__.py:135-137 | on the topic of entity field k for serial s, the registrations that match are exactly the field-k handlers of the devices with serial s, in device order |
| `Integration.FieldCallsEffect` | custom_components/nolongerevil_thermostat/__init__.py:135-137 | running the calls of field-k handlers with one payload applies that handler once to each device named and leaves every other device alone |
| `Integration.FieldMessageReachesItsEntities` | custom_components/nolongerevil_thermostat/__init__.py:126-137 | a message on the topic of any of the seven entity fields for serial s updates every device with serial s as that field's handler does (climate, fan or sensor), and changes no other device, whatever characters the serials hold |
| `Integration.AwayMessageReachesItsSensors` | nolongerevil_thermostat/binary_sensor.py:74-93 | a message on the away topic of serial s updates the sensor of every device with serial s as its handler does, and nothing else, whatever characters the serials hold |
| `Integration.Execute` | nolongerevil_thermostat/climate.py:293-335 | commands only append to the publish trace; no device state and no callback changes |
| `Integration.CommandsAreNotDispatched` | custom_components/nolongerevil_thermostat/__init__.py:184-188 | no message a command publishes is on a topic any entity listens to, whatever characters the serials hold |

## Left out

- MQTT transport: `connect`, `disconnect`, `_on_connect`, `_on_disconnect`, the paho client, UTF-8 decoding of raw payload bytes, and the return codes of subscribe and publish. The return codes are only logged. A failed `connect` logs and re-raises. Payload bytes that are not valid UTF-8 raise in `_on_message` before any callback runs; the model's payloads are already strings. Whether a paho client exists is the flag `hasClient`; published messages are the trace `sent`.
- Home Assistant plumbing: `async_setup`, the platforms' `async_setup_entry`, `async_unload_entry`, `hass.data`, executor jobs, `schedule_update_ha_state`, `unique_id`, `device_info`, supported features and logging. This is host glue.
- Concurrency between the paho callback thread and the event loop. The model is sequential.
- IEEE floating point and the internals of `float()`, `json.loads` and `str()` of a float. These are the opaque fields of `Payload.Runtime`. NaN and infinities have no `real` counterpart.
- Python's Unicode case mapping. `str.lower` and `str.upper` are modelled on ASCII letters only. Unicode upper-casing can change a string's length, which the serial check would not see.
- `str()` of a decoded list or dict in the mode handler is not rendered. The model uses the fact that its output starts with a bracket and so is never a mode name.
- The voluptuous schemas and `OptionsFlow`. They are declarative configuration with no logic of their own. Field defaults that a schema fills in appear as `Option` fields.
- const.py: its literals are copied into the modules that use them.
- The order in which Home Assistant sets up the three platforms. Registrations are made device by device. Different entity kinds never share a topic, so the order does not affect dispatch.
- Exceptions other than `ValueError` and `TypeError` raised while parsing. An example is the `RecursionError` that `json.loads` raises on very deeply nested text. The handlers do not catch it, so it would leave `_on_message` and skip the topic's remaining callbacks. `Runtime.loads` models only success or a caught failure.
- Climate.TargetCommandEcho: assumes, for the requested value only, that `float()` reads back `str()` of it as the same value. That is Python's guarantee for floats. The model's temperatures are reals and do not represent floats.

=== FILE: climate.dfy ===
/**
 * The thermostat's climate entity: Home Assistant's view of one device's
 * temperatures and mode, the HVAC action derived from them, and the
 * commands that publish new set-points and modes.
 */
module Climate {
  import opened Wrappers
  import Text
  import Payload
  import MqttClient

  /** Temperature difference beyond which the device is taken to be heating or cooling. */
  const Threshold: real := 0.5

  /** Home Assistant's HVAC modes; the entity offers the first four. */
  datatype HvacMode = Off | Heat | Cool | HeatCool | Auto | Dry | FanOnly

  /** The HVAC actions the entity reports. */
  datatype HvacAction = ActionOff | Idle | Heating | Cooling

  datatype Unit = Celsius | Fahrenheit

  const DefaultUnit: string := "celsius"

  /** Nest's mode names and their Home Assistant modes. */
  const NestToHaMode: map<string, HvacMode> :=
    map["off" := Off, "heat" := Heat, "cool" := Cool, "range" := HeatCool]

  /** Home Assistant modes and the Nest mode names they are published as. */
  const HaToNestMode: map<HvacMode, string> :=
    map[Off := "off", Heat := "heat", Cool := "cool", HeatCool := "range"]

  /** The modes the entity offers. */
  predicate Supported(m: HvacMode) {
    m == Off || m == Heat || m == Cool || m == HeatCool
  }

  /**
   * Inbound mode lookup with an "off" fallback: exactly "heat", "cool" and
   * "range" select a heating or cooling mode, every other string is off.
   */
  function ModeFromNest(s: string): (m: HvacMode)
    ensures Supported(m)
    ensures m == Heat <==> s == "heat"
    ensures m == Cool <==> s == "cool"
    ensures m == HeatCool <==> s == "range"
  {
    if s in NestToHaMode then NestToHaMode[s] else Off
  }

  /**
   * Outbound mode lookup with an "off" fallback: a supported mode is
   * published under the name that maps back to it, any other as "off".
   */
  function ModeToNest(m: HvacMode): (s: string)
    ensures s in NestToHaMode
    ensures Supported(m) ==> ModeFromNest(s) == m
    ensures !Supported(m) ==> s == "off"
  {
    if m in HaToNestMode then HaToNestMode[m] else "off"
  }

  /** The two maps are inverse on the four Nest mode names too. */
  lemma ModeMapsInverse(s: string)
    requires s in NestToHaMode
    ensures ModeToNest(ModeFromNest(s)) == s
  {
  }

  /** Upper- or mixed-case names are not recognised and read as off. */
  lemma ModeLookupIsCaseSensitive()
    ensures ModeFromNest("HEAT") == Off && ModeFromNest("Cool") == Off && ModeFromNest("Range") == Off
    ensures ModeFromNest("heat_cool") == Off && ModeFromNest("") == Off
  {
  }

  /**
   * `_update_hvac_action` as a function of mode and temperatures: off in
   * mode off; heating only for a heating mode with the target more than
   * the threshold above the current temperature; cooling only for a cooling
   * mode with the target more than the threshold below it; idle otherwise,
   * including when either temperature is unknown.
   */
  function DeriveAction(mode: HvacMode, current: Option<real>, target: Option<real>): (a: HvacAction)
    ensures a == ActionOff <==> mode == Off
    ensures a == Heating <==>
              && (mode == Heat || mode == HeatCool)
              && current.Some? && target.Some?
              && target.value - current.value > Threshold
    ensures a == Cooling <==>
              && (mode == Cool || mode == HeatCool)
              && current.Some? && target.Some?
              && target.value - current.value < -Threshold
  {
    if mode == Off then ActionOff
    else if current.Some? && target.Some? then
      var diff := target.value - current.value;
      if (if diff < 0.0 then -diff else diff) < Threshold then Idle
      else if diff > Threshold && (mode == Heat || mode == HeatCool) then Heating
      else if diff < -Threshold && (mode == Cool || mode == HeatCool) then Cooling
      else Idle
    else Idle
  }

  /** The consequences the entity's users rely on. */
  lemma ActionProperties(mode: HvacMode, current: Option<real>, target: Option<real>)
    ensures mode != Off && (current.None? || target.None?) ==> DeriveAction(mode, current, target) == Idle
    ensures mode != Off && current.Some? && target.Some?
            && -Threshold <= target.value - current.value <= Threshold
            ==> DeriveAction(mode, current, target) == Idle
    ensures mode == Heat ==> DeriveAction(mode, current, target) != Cooling
    ensures mode == Cool ==> DeriveAction(mode, current, target) != Heating
  {
  }

  /** Sample readings: a 0.3 gap is idle, a 0.6 gap heats or cools, exactly 0.5 is idle. */
  lemma ActionExamples()
    ensures DeriveAction(Heat, Some(20.0), Some(20.3)) == Idle
    ensures DeriveAction(Heat, Some(20.0), Some(20.6)) == Heating
    ensures DeriveAction(Cool, Some(20.6), Some(20.0)) == Cooling
    ensures DeriveAction(Heat, Some(20.0), Some(20.5)) == Idle
    ensures DeriveAction(HeatCool, Some(18.0), Some(22.0)) == Heating
    ensures DeriveAction(Off, Some(10.0), Some(30.0)) == ActionOff
  {
  }

  /** The entity's state. */
  datatype State = State(
    serial: string,
    unit: Unit,
    current: Option<real>,
    target: Option<real>,
    low: Option<real>,
    high: Option<real>,
    mode: HvacMode,
    action: HvacAction)

  /** The reported action agrees with mode and temperatures. */
  predicate Consistent(c: State) {
    c.action == DeriveAction(c.mode, c.current, c.target)
  }

  /**
   * A new entity: nothing known, mode and action off; Fahrenheit exactly
   * when the configured unit (default "celsius") lower-cases to "fahrenheit".
   */
  function Init(serial: string, unit: Option<string>): (c: State)
    ensures c.serial == serial
    ensures c.current.None? && c.target.None? && c.low.None? && c.high.None?
    ensures c.mode == Off && c.action == ActionOff
    ensures c.unit == Fahrenheit <==> Text.Lower(unit.GetOr(DefaultUnit)) == "fahrenheit"
    ensures Consistent(c)
  {
    var u := if Text.Lower(unit.GetOr(DefaultUnit)) == "fahrenheit" then Fahrenheit else Celsius;
    State(serial, u, None, None, None, None, Off, ActionOff)
  }

  /**
   * A temperature payload as the handlers read it. Structured text never
   * yields a number: either `json.loads` raises, or it returns a list or
   * object that `float()` rejects.
   */
  function ParseTemperature(rt: Payload.Runtime, p: string): (r: Option<real>)
    ensures Payload.LooksStructured(p) ==> r.None?
    ensures !Payload.LooksStructured(p) ==> r == rt.toFloat(p)
  {
    match Payload.Decode(rt, p)
    case Some(Str(s)) => rt.toFloat(s)
    case _ => None
  }

  /** `_handle_current_temperature`: store the reading and re-derive the action. */
  function HandleCurrentTemperature(rt: Payload.Runtime, c: State, p: string): (r: State)
    ensures ParseTemperature(rt, p).None? ==> r == c
    ensures ParseTemperature(rt, p).Some? ==> r.current == ParseTemperature(rt, p) && Consistent(r)
    ensures r.serial == c.serial && r.unit == c.unit && r.mode == c.mode
    ensures r.target == c.target && r.low == c.low && r.high == c.high
  {
    match ParseTemperature(rt, p)
    case None => c
    case Some(v) => c.(current := Some(v), action := DeriveAction(c.mode, Some(v), c.target))
  }

  /** `_handle_target_temperature`: store the set-point; the action is left as it was. */
  function HandleTargetTemperature(rt: Payload.Runtime, c: State, p: string): (r: State)
    ensures ParseTemperature(rt, p).None? ==> r == c
    ensures ParseTemperature(rt, p).Some? ==> r.target == ParseTemperature(rt, p)
    ensures r.serial == c.serial && r.unit == c.unit && r.mode == c.mode && r.action == c.action
    ensures r.current == c.current && r.low == c.low && r.high == c.high
  {
    match ParseTemperature(rt, p)
    case None => c
    case Some(v) => c.(target := Some(v))
  }

  /** `_handle_target_temperature_low`: store the lower set-point of the range. */
  function HandleTargetTemperatureLow(rt: Payload.Runtime, c: State, p: string): (r: State)
    ensures ParseTemperature(rt, p).None? ==> r == c
    ensures ParseTemperature(rt, p).Some? ==> r.low == ParseTemperature(rt, p)
    ensures r.serial == c.serial && r.unit == c.unit && r.mode == c.mode && r.action == c.action
    ensures r.current == c.current && r.target == c.target && r.high == c.high
  {
    match ParseTemperature(rt, p)
    case None => c
    case Some(v) => c.(low := Some(v))
  }

  /** `_handle_target_temperature_high`: store the upper set-point of the range. */
  function HandleTargetTemperatureHigh(rt: Payload.Runtime, c: State, p: string): (r: State)
    ensures ParseTemperature(rt, p).None? ==> r == c
    ensures ParseTemperature(rt, p).Some? ==> r.high == ParseTemperature(rt, p)
    ensures r.serial == c.serial && r.unit == c.unit && r.mode == c.mode && r.action == c.action
    ensures r.current == c.current && r.target == c.target && r.low == c.low
  {
    match ParseTemperature(rt, p)
    case None => c
    case Some(v) => c.(high := Some(v))
  }

  /**
   * `_handle_hvac_mode`: look the mode up and re-derive the action. A
   * decoded list or object prints with a leading bracket, which is no mode
   * name, so it selects off; a malformed one changes nothing.
   */
  function HandleMode(rt: Payload.Runtime, c: State, p: string): (r: State)
    ensures Payload.Decode(rt, p).None? ==> r == c
    ensures !Payload.LooksStructured(p) ==> r.mode == ModeFromNest(p)
    ensures Payload.LooksStructured(p) && Payload.Decode(rt, p).Some? ==> r.mode == Off && r.action == ActionOff
    ensures Payload.Decode(rt, p).Some? ==> Consistent(r)
    ensures r.serial == c.serial && r.unit == c.unit
    ensures r.current == c.current && r.target == c.target && r.low == c.low && r.high == c.high
  {
    match Payload.Decode(rt, p)
    case None => c
    case Some(v) =>
      var mode := if v.Str? then ModeFromNest(v.s) else Off;
      c.(mode := mode, action := DeriveAction(mode, c.current, c.target))
  }

  /** Low and high updates cannot break consistency, since the action does not read them. */
  lemma RangeUpdatesKeepConsistency(rt: Payload.Runtime, c: State, p: string)
    requires Consistent(c)
    ensures Consistent(HandleTargetTemperatureLow(rt, c, p))
    ensures Consistent(HandleTargetTemperatureHigh(rt, c, p))
  {
  }

  /**
   * A target update alone leaves the action stale: heating mode, 20 degrees
   * measured and wanted, then a new target of 21 still reports idle.
   */
  lemma TargetUpdateLeavesActionStale(rt: Payload.Runtime, c: State, p: string)
    requires c.mode == Heat && c.current == Some(20.0) && c.target == Some(20.0) && Consistent(c)
    requires !Payload.LooksStructured(p) && rt.toFloat(p) == Some(21.0)
    ensures HandleTargetTemperature(rt, c, p).action == Idle
    ensures !Consistent(HandleTargetTemperature(rt, c, p))
  {
  }

  /** The handlers this entity registers. */
  datatype Field = CurrentTemperature | TargetTemperature | TargetTemperatureLow | TargetTemperatureHigh | Mode

  /** The handler reading each of the first five entity fields, in the order of `MqttClient.EntityFields`. */
  const Handlers: seq<Field> := [CurrentTemperature, TargetTemperature, TargetTemperatureLow, TargetTemperatureHigh, Mode]

  /** The handler registered for each field. */
  function Handle(rt: Payload.Runtime, c: State, field: Field, p: string): (r: State)
    ensures r.serial == c.serial
  {
    match field
    case CurrentTemperature => HandleCurrentTemperature(rt, c, p)
    case TargetTemperature => HandleTargetTemperature(rt, c, p)
    case TargetTemperatureLow => HandleTargetTemperatureLow(rt, c, p)
    case TargetTemperatureHigh => HandleTargetTemperatureHigh(rt, c, p)
    case Mode => HandleMode(rt, c, p)
  }

  /**
   * `_subscribe_to_topics`: five registrations, each the `get_topic` of
   * the field its handler reads.
   */
  function Subscriptions(prefix: string, serial: string): (subs: seq<(string, Field)>)
    ensures |subs| == 5
    ensures forall k :: 0 <= k < 5 ==>
              subs[k].0 == MqttClient.GetTopic(prefix, serial, MqttClient.EntityFields[k].0, MqttClient.EntityFields[k].1)
    ensures forall k :: 0 <= k < 5 ==> subs[k].1 == Handlers[k]
  {
    [ (MqttClient.GetTopic(prefix, serial, "device", "current_temperature"), CurrentTemperature),
      (MqttClient.GetTopic(prefix, serial, "shared", "target_temperature"), TargetTemperature),
      (MqttClient.GetTopic(prefix, serial, "shared", "target_temperature_low"), TargetTemperatureLow),
      (MqttClient.GetTopic(prefix, serial, "shared", "target_temperature_high"), TargetTemperatureHigh),
      (MqttClient.GetTopic(prefix, serial, "shared", "target_temperature_type"), Mode) ]
  }

  // ---------------------------------------------------------------- commands

  /** A keyword argument that is present and truthy; a zero temperature is skipped. */
  predicate Given(t: Option<real>) {
    t.Some? && t.value != 0.0
  }

  /** Reference: the (field, value) pairs a temperature command sends, in argument order. */
  function TemperatureCommands(temp: Option<real>, low: Option<real>, high: Option<real>): (cmds: seq<(string, real)>)
    ensures forall k :: 0 <= k < |cmds| ==>
              cmds[k].0 == "target_temperature" || cmds[k].0 == "target_temperature_low" || cmds[k].0 == "target_temperature_high"
  {
    (if Given(temp) then [("target_temperature", temp.value)] else [])
    + (if Given(low) then [("target_temperature_low", low.value)] else [])
    + (if Given(high) then [("target_temperature_high", high.value)] else [])
  }

  /** One QoS 1 message per command, to the field's command topic under "shared". */
  function CommandMessages(rt: Payload.Runtime, prefix: string, serial: string, cmds: seq<(string, real)>)
    : (ms: seq<MqttClient.Message>)
    ensures |ms| == |cmds|
    ensures forall k :: 0 <= k < |ms| ==>
              ms[k].topic == MqttClient.GetSetTopic(prefix, serial, "shared", cmds[k].0)
              && ms[k].payload == rt.showFloat(cmds[k].1) && ms[k].qos == MqttClient.Qos
  {
    seq(|cmds|, k requires 0 <= k < |cmds| =>
      MqttClient.Message(MqttClient.GetSetTopic(prefix, serial, "shared", cmds[k].0), rt.showFloat(cmds[k].1), MqttClient.Qos))
  }

  /** Publish one temperature field when its argument is given. */
  function PublishIfGiven<C>(rt: Payload.Runtime, cl: MqttClient.Client<C>, serial: string, field: string, t: Option<real>)
    : MqttClient.Client<C>
  {
    if Given(t) then
      MqttClient.Publish(rt, cl, MqttClient.GetSetTopic(cl.prefix, serial, "shared", field), MqttClient.OutFloat(t.value))
    else cl
  }

  /**
   * `async_set_temperature`: one publish per given argument (target, then
   * low, then high) to that field's command topic; the entity's state is
   * not an output.
   */
  function SetTemperature<C>(rt: Payload.Runtime, cl: MqttClient.Client<C>, c: State,
                             temp: Option<real>, low: Option<real>, high: Option<real>): (r: MqttClient.Client<C>)
    ensures r.prefix == cl.prefix && r.hasClient == cl.hasClient && r.callbacks == cl.callbacks
    ensures !cl.hasClient ==> r.sent == cl.sent
    ensures cl.hasClient ==> r.sent == cl.sent + CommandMessages(rt, cl.prefix, c.serial, TemperatureCommands(temp, low, high))
  {
    var c1 := PublishIfGiven(rt, cl, c.serial, "target_temperature", temp);
    var c2 := PublishIfGiven(rt, c1, c.serial, "target_temperature_low", low);
    PublishIfGiven(rt, c2, c.serial, "target_temperature_high", high)
  }

  /** `async_set_hvac_mode`: one publish of the Nest mode name to the mode's command topic. */
  function SetHvacMode<C>(rt: Payload.Runtime, cl: MqttClient.Client<C>, c: State, m: HvacMode): (r: MqttClient.Client<C>)
    ensures r.prefix == cl.prefix && r.hasClient == cl.hasClient && r.callbacks == cl.callbacks
    ensures !cl.hasClient ==> r.sent == cl.sent
    ensures cl.hasClient ==> r.sent == cl.sent + [MqttClient.Message(
              MqttClient.GetSetTopic(cl.prefix, c.serial, "shared", "target_temperature_type"), ModeToNest(m), MqttClient.Qos)]
  {
    MqttClient.Publish(rt, cl, MqttClient.GetSetTopic(cl.prefix, c.serial, "shared", "target_temperature_type"),
                       MqttClient.OutText(ModeToNest(m)))
  }

  /** `str()` of the float `x` is plain text that `float()` reads back as `x`, as Python guarantees for floats. */
  predicate FloatReprRoundTrips(rt: Payload.Runtime, x: real) {
    !Payload.LooksStructured(rt.showFloat(x)) && rt.toFloat(rt.showFloat(x)) == Some(x)
  }

  /**
   * When the broker echoes a mode command back on the state topic, the
   * entity ends in the requested mode (any supported one) with a
   * consistent action.
   */
  lemma ModeCommandEcho<C>(rt: Payload.Runtime, cl: MqttClient.Client<C>, c: State, m: HvacMode)
    requires cl.hasClient && Supported(m)
    ensures var sent := SetHvacMode(rt, cl, c, m).sent[|cl.sent|];
            && HandleMode(rt, c, sent.payload).mode == m
            && Consistent(HandleMode(rt, c, sent.payload))
  {
    var s := ModeToNest(m);
    assert s in NestToHaMode;
    assert !Payload.LooksStructured(s);
  }

  /**
   * When the broker echoes a target command back on the state topic, the
   * entity stores exactly the requested value.
   */
  lemma TargetCommandEcho<C>(rt: Payload.Runtime, cl: MqttClient.Client<C>, c: State, t: real)
    requires cl.hasClient && t != 0.0 && FloatReprRoundTrips(rt, t)
    ensures |SetTemperature(rt, cl, c, Some(t), None, None).sent| == |cl.sent| + 1
    ensures var sent := SetTemperature(rt, cl, c, Some(t), None, None).sent[|cl.sent|];
            && sent.topic == MqttClient.GetSetTopic(cl.prefix, c.serial, "shared", "target_temperature")
            && HandleTargetTemperature(rt, c, sent.payload).target == Some(t)
  {
  }
}

=== FILE: config_flow.dfy ===
/**
 * The configuration flow: a broker step, then a device step that
 * validates each submitted device, accumulates the accepted ones while
 * "add another" is ticked, and finally creates the config entry.
 */
module ConfigFlow {
  import opened Wrappers
  import Text

  const DefaultUnit: string := "celsius"

  /** Serial numbers are exactly this long. */
  const SerialLength: nat := 8

  /** The broker step's form contents, stored as the entry's data. */
  datatype BrokerSettings = BrokerSettings(
    broker: string,
    port: int,
    username: Option<string>,
    password: Option<string>,
    prefix: string)

  /** One device as stored in the entry. */
  datatype DeviceEntry = DeviceEntry(name: string, serial: string, unit: string)

  /** One submission of the device form; `None` is a missing key. */
  datatype DeviceInput = DeviceInput(
    name: Option<string>,
    serial: Option<string>,
    unit: Option<string>,
    addAnother: Option<bool>)

  /** The data of a created entry: the broker settings (absent if never submitted) and the devices. */
  datatype EntryData = EntryData(broker: Option<BrokerSettings>, devices: seq<DeviceEntry>)

  /** What a step returns: a form to show (with errors and a device count) or a created entry. */
  datatype Result =
    | ShowForm(stepId: string, errors: map<string, string>, deviceCount: Option<string>)
    | CreateEntry(title: string, data: EntryData)

  /** The flow's own state. */
  datatype Flow = Flow(data: Option<BrokerSettings>, devices: seq<DeviceEntry>)

  function NewFlow(): (f: Flow)
    ensures f.data.None? && f.devices == []
  {
    Flow(None, [])
  }

  /** `user_input.get(key)` is truthy: present and non-empty. */
  predicate Filled(s: Option<string>) {
    s.Some? && |s.value| > 0
  }

  /**
   * The first failing check, as (form field, error code): name first,
   * then serial presence, then serial length.
   */
  function ValidationError(input: DeviceInput): (e: Option<(string, string)>)
    ensures !Filled(input.name) ==> e == Some(("name", "name_required"))
    ensures Filled(input.name) && !Filled(input.serial) ==> e == Some(("serial", "serial_required"))
    ensures Filled(input.name) && Filled(input.serial) && |input.serial.value| != SerialLength
            ==> e == Some(("serial", "serial_invalid"))
    ensures e.None? <==> Filled(input.name) && Filled(input.serial) && |input.serial.value| == SerialLength
  {
    if !Filled(input.name) then Some(("name", "name_required"))
    else if !Filled(input.serial) then Some(("serial", "serial_required"))
    else if |input.serial.value| != SerialLength then Some(("serial", "serial_invalid"))
    else None
  }

  predicate Valid(input: DeviceInput) {
    ValidationError(input).None?
  }

  /** The device stored for a valid submission. */
  function EntryOf(input: DeviceInput): (d: DeviceEntry)
    requires Valid(input)
    ensures d.name == input.name.value
    ensures |d.serial| == SerialLength
    ensures forall i :: 0 <= i < |d.serial| ==> !Text.IsLowerAscii(d.serial[i])
    ensures d.serial == Text.Upper(input.serial.value)
    ensures d.unit == input.unit.GetOr(DefaultUnit)
  {
    Text.UpperNormalises(input.serial.value);
    DeviceEntry(input.name.value, Text.Upper(input.serial.value), input.unit.GetOr(DefaultUnit))
  }

  const TitleHead: string := "No Longer Evil Thermostat ("

  /** The entry title: the count in decimal, then "device", pluralised for more than one device. */
  function Title(n: nat): (t: string)
    ensures |t| > |TitleHead| + 2 && t[..|TitleHead|] == TitleHead && t[|t| - 1] == ')'
    ensures t[|t| - 2] == 's' <==> n > 1
    ensures exists d: string ::
              && |d| >= 1 && Text.AllDigits(d) && Text.ParseDigits(d) == n
              && t == TitleHead + d + " device" + (if n > 1 then "s" else "") + ")"
  {
    Text.ParseNatToString(n);
    TitleHead + Text.NatToString(n) + " device" + (if n > 1 then "s" else "") + ")"
  }

  /** Different device counts give different titles. */
  lemma TitleDeterminesCount(n: nat, m: nat)
    requires Title(n) == Title(m)
    ensures n == m
  {
    var t := Title(n);
    var sn: string :| |sn| >= 1 && Text.AllDigits(sn) && Text.ParseDigits(sn) == n
                      && t == TitleHead + sn + " device" + (if n > 1 then "s" else "") + ")";
    var sm: string :| |sm| >= 1 && Text.AllDigits(sm) && Text.ParseDigits(sm) == m
                      && t == TitleHead + sm + " device" + (if m > 1 then "s" else "") + ")";
    var rn := "device" + (if n > 1 then "s" else "") + ")";
    var rm := "device" + (if m > 1 then "s" else "") + ")";
    // The count's digits run up to the first space after the head.
    TitleRegroup(sn, if n > 1 then "s" else "");
    TitleRegroup(sm, if m > 1 then "s" else "");
    assert sn + [' '] + rn == t[|TitleHead|..] == sm + [' '] + rm;
    assert ' ' !in sn && ' ' !in sm;
    Text.SplitAtFirst(sn, rn, sm, rm, ' ');
  }

  /** A title split at the space after its digits. */
  lemma TitleRegroup(d: string, plural: string)
    ensures TitleHead + d + " device" + plural + ")" == TitleHead + (d + [' '] + ("device" + plural + ")"))
  {
    assert " device" == [' '] + "device";
  }

  /** The device form, showing how many devices have been accepted so far. */
  function DeviceForm(f: Flow, errors: map<string, string>): Result {
    ShowForm("device", errors, Some(Text.NatToString(|f.devices|)))
  }

  /**
   * `async_step_device`. No input shows the form. An invalid submission
   * shows the form again with the first error and keeps the device list.
   * A valid one appends exactly one device; then, with "add another", the
   * form is shown again, otherwise the entry is created with every
   * accepted device in order and a title counting them.
   */
  function StepDevice(f: Flow, input: Option<DeviceInput>): (r: (Flow, Result))
    ensures input.None? ==> r == (f, DeviceForm(f, map[]))
    ensures input.Some? && !Valid(input.value) ==>
              var e := ValidationError(input.value).value;
              r == (f, DeviceForm(f, map[e.0 := e.1]))
    ensures input.Some? && Valid(input.value) ==>
              && r.0.data == f.data
              && r.0.devices == f.devices + [EntryOf(input.value)]
              && (input.value.addAnother == Some(true) ==> r.1 == DeviceForm(r.0, map[]))
              && (input.value.addAnother != Some(true) ==>
                    r.1 == CreateEntry(Title(|f.devices| + 1), EntryData(f.data, f.devices + [EntryOf(input.value)])))
  {
    match input
    case None => (f, DeviceForm(f, map[]))
    case Some(i) =>
      match ValidationError(i)
      case Some(e) => (f, DeviceForm(f, map[e.0 := e.1]))
      case None =>
        var f' := f.(devices := f.devices + [EntryOf(i)]);
        if i.addAnother == Some(true) then (f', DeviceForm(f', map[]))
        else (f', CreateEntry(Title(|f'.devices|), EntryData(f'.data, f'.devices)))
  }

  /** `async_step_user`: show the broker form, or store the settings and show the device form. */
  function StepUser(f: Flow, input: Option<BrokerSettings>): (r: (Flow, Result))
    ensures input.None? ==> r == (f, ShowForm("user", map[], None))
    ensures input.Some? ==> r.0 == f.(data := input) && r.1 == DeviceForm(f, map[])
  {
    match input
    case None => (f, ShowForm("user", map[], None))
    case Some(b) => StepDevice(f.(data := Some(b)), None)
  }

  /** A series of device-form submissions, in order. */
  function Submit(f: Flow, inputs: seq<DeviceInput>): Flow
    decreases |inputs|
  {
    if |inputs| == 0 then f
    else StepDevice(Submit(f, inputs[..|inputs| - 1]), Some(inputs[|inputs| - 1])).0
  }

  /** Reference: the devices the valid submissions describe, in submission order. */
  function Accepted(inputs: seq<DeviceInput>): seq<DeviceEntry>
    decreases |inputs|
  {
    if |inputs| == 0 then []
    else
      var last := inputs[|inputs| - 1];
      Accepted(inputs[..|inputs| - 1]) + (if Valid(last) then [EntryOf(last)] else [])
  }

  /**
   * Across any series of submissions the flow keeps its broker settings
   * and its device list grows by exactly the valid submissions, in order.
   */
  lemma {:induction false} SubmitAccumulates(f: Flow, inputs: seq<DeviceInput>)
    ensures Submit(f, inputs).data == f.data
    ensures Submit(f, inputs).devices == f.devices + Accepted(inputs)
    decreases |inputs|
  {
    if |inputs| > 0 {
      SubmitAccumulates(f, inputs[..|inputs| - 1]);
    }
  }

  /**
   * The whole flow: broker settings, any series of device submissions,
   * then a valid one without "add another" creates an entry holding the
   * settings and every accepted device in order. The earlier submissions
   * are not restricted: the statement also covers series that no user can
   * produce, where an earlier valid submission without "add another"
   * would already have created the entry and ended the flow.
   */
  lemma FlowCreatesEntry(b: BrokerSettings, inputs: seq<DeviceInput>, last: DeviceInput)
    requires Valid(last) && last.addAnother != Some(true)
    ensures var f := Submit(StepUser(NewFlow(), Some(b)).0, inputs);
            var devices := Accepted(inputs) + [EntryOf(last)];
            StepDevice(f, Some(last)).1 == CreateEntry(Title(|devices|), EntryData(Some(b), devices))
  {
    var f0 := StepUser(NewFlow(), Some(b)).0;
    SubmitAccumulates(f0, inputs);
  }
}

=== FILE: fan.dfy ===
/** The thermostat's fan entity: on/off state read from and commanded to `device/fan_timer_active`. */
module Fan {
  import opened Wrappers
  import Text
  import Payload
  import MqttClient

  datatype State = State(serial: string, isOn: bool)

  /** A new fan entity reports off. */
  function Init(serial: string): (f: State)
    ensures f.serial == serial && !f.isOn
  {
    State(serial, false)
  }

  /** The one topic the fan entity registers a callback for. */
  function SubscribedTopic(prefix: string, serial: string): (t: string)
    ensures t == MqttClient.GetTopic(prefix, serial, MqttClient.EntityFields[5].0, MqttClient.EntityFields[5].1)
  {
    MqttClient.GetTopic(prefix, serial, "device", "fan_timer_active")
  }

  /**
   * `_handle_fan_state`: plain text turns the fan on exactly for a
   * case-insensitive "true", "1" or "on"; a decoded list or object exactly
   * when non-empty; a malformed structured payload changes nothing.
   */
  function HandleFanState(rt: Payload.Runtime, f: State, p: string): (r: State)
    ensures r.serial == f.serial
    ensures !Payload.LooksStructured(p) ==> (r.isOn <==> Text.Lower(p) in Payload.TrueWords)
    ensures Payload.LooksStructured(p) && rt.loads(p).None? ==> r == f
    ensures Payload.LooksStructured(p) && rt.loads(p).Some? ==> (r.isOn <==> Payload.Size(rt.loads(p).value) > 0)
  {
    match Payload.Decode(rt, p)
    case None => f
    case Some(v) => f.(isOn := Payload.CoerceBool(v))
  }

  /** Sample payloads: "ON" and "True" switch on, "", "0", "false" and "yes" switch off. */
  lemma FanPayloadExamples(rt: Payload.Runtime, f: State)
    ensures HandleFanState(rt, f, "ON").isOn && HandleFanState(rt, f, "True").isOn
    ensures !HandleFanState(rt, f, "").isOn && !HandleFanState(rt, f, "0").isOn
    ensures !HandleFanState(rt, f, "false").isOn && !HandleFanState(rt, f, "yes").isOn
  {
    Payload.PlainTextReadings(rt);
  }

  /** The command topic both fan commands publish to. */
  function CommandTopic(prefix: string, serial: string): string {
    MqttClient.GetSetTopic(prefix, serial, "device", "fan_timer_active")
  }

  /** `async_turn_on`: publish `True`, rendered "True", to the fan's command topic. */
  function TurnOn<C>(rt: Payload.Runtime, cl: MqttClient.Client<C>, f: State): (r: MqttClient.Client<C>)
    ensures r.prefix == cl.prefix && r.hasClient == cl.hasClient && r.callbacks == cl.callbacks
    ensures !cl.hasClient ==> r.sent == cl.sent
    ensures cl.hasClient ==> r.sent == cl.sent + [MqttClient.Message(CommandTopic(cl.prefix, f.serial), "True", MqttClient.Qos)]
  {
    MqttClient.Publish(rt, cl, CommandTopic(cl.prefix, f.serial), MqttClient.OutBool(true))
  }

  /** `async_turn_off`: publish `False`, rendered "False", to the fan's command topic. */
  function TurnOff<C>(rt: Payload.Runtime, cl: MqttClient.Client<C>, f: State): (r: MqttClient.Client<C>)
    ensures r.prefix == cl.prefix && r.hasClient == cl.hasClient && r.callbacks == cl.callbacks
    ensures !cl.hasClient ==> r.sent == cl.sent
    ensures cl.hasClient ==> r.sent == cl.sent + [MqttClient.Message(CommandTopic(cl.prefix, f.serial), "False", MqttClient.Qos)]
  {
    MqttClient.Publish(rt, cl, CommandTopic(cl.prefix, f.serial), MqttClient.OutBool(false))
  }

  /** A turn-on or turn-off command echoed back by the broker leaves the fan in the commanded state. */
  lemma CommandEcho<C>(rt: Payload.Runtime, cl: MqttClient.Client<C>, f: State)
    requires cl.hasClient
    ensures HandleFanState(rt, f, TurnOn(rt, cl, f).sent[|cl.sent|].payload).isOn
    ensures !HandleFanState(rt, f, TurnOff(rt, cl, f).sent[|cl.sent|].payload).isOn
  {
    assert Text.Lower("True") == "true";
    assert Text.Lower("False") == "false";
  }
}

=== FILE: integration.dfy ===
/**
 * The integration as a whole: one MQTT client shared by a climate entity,
 * a fan entity and an occupancy sensor per configured device. Callbacks
 * are typed handler values; delivering an inbound message runs the calls
 * the client dispatches, in order, against the devices' states.
 */
module Integration {
  import opened Wrappers
  import Text
  import Payload
  import MqttClient
  import Climate
  import Fan
  import Occupancy
  import ConfigFlow

  /** A registered callback: which device's entity, and which of its handlers. */
  datatype Handler =
    | ClimateHandler(device: nat, field: Climate.Field)
    | FanHandler(device: nat)
    | AwayHandler(device: nat)

  /** The three entities of one device. */
  datatype Device = Device(climate: Climate.State, fan: Fan.State, occupancy: Occupancy.State)

  datatype System = System(client: MqttClient.Client<Handler>, devices: seq<Device>)

  /** The entities created for one configured device. */
  function DeviceOf(e: ConfigFlow.DeviceEntry): (d: Device)
    ensures d.climate == Climate.Init(e.serial, Some(e.unit))
    ensures d.fan == Fan.Init(e.serial) && d.occupancy == Occupancy.Init(e.serial)
  {
    Device(Climate.Init(e.serial, Some(e.unit)), Fan.Init(e.serial), Occupancy.Init(e.serial))
  }

  /** The registrations made by the three entities of device `j`. */
  function EntitySubscriptions(prefix: string, serial: string, j: nat): (subs: seq<(string, Handler)>)
    ensures |subs| == 7
    ensures forall k :: 0 <= k < 7 ==>
              subs[k].0 == MqttClient.GetTopic(prefix, serial, MqttClient.EntityFields[k].0, MqttClient.EntityFields[k].1)
    ensures forall k :: 0 <= k < 7 ==> subs[k].1.device == j
    ensures forall k :: 0 <= k < 5 ==> subs[k].1 == ClimateHandler(j, Climate.Handlers[k])
    ensures forall k :: 0 <= k < 7 ==> subs[k].1 == EntityHandler(j, k)
    ensures subs[6].1 == AwayHandler(j) && subs[5].1 == FanHandler(j)
  {
    var climate := Climate.Subscriptions(prefix, serial);
    seq(5, k requires 0 <= k < 5 => (climate[k].0, ClimateHandler(j, climate[k].1)))
    + [(Fan.SubscribedTopic(prefix, serial), FanHandler(j)),
       (Occupancy.SubscribedTopic(prefix, serial), AwayHandler(j))]
  }

  /** All registrations, device by device. */
  function AllSubscriptions(prefix: string, entries: seq<ConfigFlow.DeviceEntry>): (subs: seq<(string, Handler)>)
    ensures forall k :: 0 <= k < |subs| ==> subs[k].1.device < |entries|
    decreases |entries|
  {
    if |entries| == 0 then []
    else
      AllSubscriptions(prefix, entries[..|entries| - 1])
      + EntitySubscriptions(prefix, entries[|entries| - 1].serial, |entries| - 1)
  }

  /** The callbacks every entity registers on a fresh client. */
  function WiredCallbacks(prefix: string, entries: seq<ConfigFlow.DeviceEntry>): map<string, seq<Handler>> {
    MqttClient.SubscribeAll(MqttClient.NewClient(Some(prefix)), AllSubscriptions(prefix, entries)).callbacks
  }

  /**
   * The system as set up from a config entry: a client with the entry's
   * prefix, whose connection attempt did or did not create a paho client,
   * and one freshly initialised device per entry.
   */
  function Setup(prefix: Option<string>, hasClient: bool, entries: seq<ConfigFlow.DeviceEntry>): (sys: System)
    ensures Wired(sys, entries)
    ensures sys.client.prefix == prefix.GetOr(MqttClient.DefaultPrefix) && sys.client.hasClient == hasClient
    ensures sys.client.sent == []
    ensures forall j :: 0 <= j < |entries| ==> sys.devices[j] == DeviceOf(entries[j])
  {
    var p := prefix.GetOr(MqttClient.DefaultPrefix);
    var cl := MqttClient.SubscribeAll(MqttClient.NewClient(Some(p)), AllSubscriptions(p, entries));
    System(cl.(hasClient := hasClient), seq(|entries|, j requires 0 <= j < |entries| => DeviceOf(entries[j])))
  }

  /** The client carries exactly the entities' registrations and each device keeps its entry's serial. */
  predicate Wired(sys: System, entries: seq<ConfigFlow.DeviceEntry>) {
    && sys.client.callbacks == WiredCallbacks(sys.client.prefix, entries)
    && |sys.devices| == |entries|
    && forall j :: 0 <= j < |entries| ==>
         && sys.devices[j].climate.serial == entries[j].serial
         && sys.devices[j].fan.serial == entries[j].serial
         && sys.devices[j].occupancy.serial == entries[j].serial
  }

  /** One callback invocation on the devices' states. */
  function Apply(rt: Payload.Runtime, ds: seq<Device>, call: MqttClient.Call<Handler>): (r: seq<Device>)
    ensures |r| == |ds|
    ensures forall j :: 0 <= j < |ds| ==>
              && r[j].climate.serial == ds[j].climate.serial
              && r[j].fan.serial == ds[j].fan.serial
              && r[j].occupancy.serial == ds[j].occupancy.serial
  {
    var j := call.callback.device;
    if j >= |ds| then ds
    else
      var d := ds[j];
      match call.callback
      case ClimateHandler(_, field) => ds[j := d.(climate := Climate.Handle(rt, d.climate, field, call.payload))]
      case FanHandler(_) => ds[j := d.(fan := Fan.HandleFanState(rt, d.fan, call.payload))]
      case AwayHandler(_) => ds[j := d.(occupancy := Occupancy.HandleAwayState(rt, d.occupancy, call.payload))]
  }

  /** The calls of one dispatch, run in order. */
  function ApplyAll(rt: Payload.Runtime, ds: seq<Device>, calls: seq<MqttClient.Call<Handler>>): (r: seq<Device>)
    ensures |r| == |ds|
    ensures forall j :: 0 <= j < |ds| ==>
              && r[j].climate.serial == ds[j].climate.serial
              && r[j].fan.serial == ds[j].fan.serial
              && r[j].occupancy.serial == ds[j].occupancy.serial
    decreases |calls|
  {
    if |calls| == 0 then ds
    else Apply(rt, ApplyAll(rt, ds, calls[..|calls| - 1]), calls[|calls| - 1])
  }

  /** An inbound message: dispatch it and run every resulting call; the client is unchanged. */
  function Deliver(rt: Payload.Runtime, sys: System, topic: string, payload: string): (r: System)
    ensures r.client == sys.client
    ensures forall entries :: Wired(sys, entries) ==> Wired(r, entries)
  {
    sys.(devices := ApplyAll(rt, sys.devices, MqttClient.OnMessage(sys.client, topic, payload)))
  }

  /** A message on a topic nobody registered changes nothing. */
  lemma ForeignTopicIgnored(rt: Payload.Runtime, sys: System, topic: string, payload: string)
    requires topic !in sys.client.callbacks
    ensures Deliver(rt, sys, topic, payload) == sys
  {
  }

  /** On a wired client, dispatch yields exactly the matching registrations, in registration order. */
  lemma WiredDispatch(sys: System, entries: seq<ConfigFlow.DeviceEntry>, topic: string, payload: string)
    requires Wired(sys, entries)
    ensures MqttClient.OnMessage(sys.client, topic, payload)
            == MqttClient.CallsTo(MqttClient.Matching(AllSubscriptions(sys.client.prefix, entries), topic), topic, payload)
  {
    var blank := MqttClient.NewClient<Handler>(Some(sys.client.prefix));
    MqttClient.DispatchFollowsSubscriptions(blank, AllSubscriptions(sys.client.prefix, entries), topic, payload);
  }

  /** The serials of the entries, as the client reads them from the entry data. */
  function Serials(entries: seq<ConfigFlow.DeviceEntry>): (ss: seq<Option<string>>)
    ensures |ss| == |entries|
    ensures forall j :: 0 <= j < |entries| ==> ss[j] == Some(entries[j].serial)
  {
    seq(|entries|, j requires 0 <= j < |entries| => Some(entries[j].serial))
  }

  /**
   * Every topic an entity of a device with a non-empty serial registers a
   * callback for is among the topics the client subscribes at the broker.
   */
  lemma RegisteredTopicsAreSubscribed(prefix: string, entries: seq<ConfigFlow.DeviceEntry>, j: nat, k: nat)
    requires j < |entries| && |entries[j].serial| > 0 && k < 7
    ensures EntitySubscriptions(prefix, entries[j].serial, j)[k].0 in MqttClient.BrokerTopics(prefix, Serials(entries))
  {
    var serial := entries[j].serial;
    var t := EntitySubscriptions(prefix, serial, j)[k].0;
    MqttClient.DeviceTopicsAreEntityTopics(prefix, serial);
    assert t == MqttClient.DeviceTopics(prefix, serial)[k];
    assert MqttClient.HasSerial(Serials(entries)[j]);
    MqttClient.BrokerTopicsMembership(prefix, Serials(entries), t);
  }

  /** A topic some entity reads: `get_topic` of one of the seven entity fields, for any serial. */
  ghost predicate IsEntityTopic(prefix: string, t: string) {
    exists serial: string, m: nat ::
      m < 7 && t == MqttClient.GetTopic(prefix, serial, MqttClient.EntityFields[m].0, MqttClient.EntityFields[m].1)
  }

  /** Every registered topic is an entity topic. */
  lemma {:induction false} RegisteredTopicsAreEntityTopics(prefix: string, entries: seq<ConfigFlow.DeviceEntry>)
    ensures forall k :: 0 <= k < |AllSubscriptions(prefix, entries)| ==>
              IsEntityTopic(prefix, AllSubscriptions(prefix, entries)[k].0)
    decreases |entries|
  {
    if |entries| > 0 {
      var init := entries[..|entries| - 1];
      var serial := entries[|entries| - 1].serial;
      RegisteredTopicsAreEntityTopics(prefix, init);
      var own := EntitySubscriptions(prefix, serial, |entries| - 1);
      forall k | 0 <= k < 7
        ensures IsEntityTopic(prefix, own[k].0)
      {
        assert own[k].0 == MqttClient.GetTopic(prefix, serial, MqttClient.EntityFields[k].0, MqttClient.EntityFields[k].1);
      }
    }
  }

  // ---------------------------------------------------------------- entity topics, end to end

  /** The handler that entity field `k` of device `j` registers, in the order of `MqttClient.EntityFields`. */
  function EntityHandler(j: nat, k: nat): (h: Handler)
    requires k < 7
    ensures h.device == j
  {
    if k < 5 then ClimateHandler(j, Climate.Handlers[k]) else if k == 5 then FanHandler(j) else AwayHandler(j)
  }

  /** What the handler of entity field `k` does to one device given one payload. */
  function Step(rt: Payload.Runtime, d: Device, k: nat, p: string): Device
    requires k < 7
  {
    if k < 5 then d.(climate := Climate.Handle(rt, d.climate, Climate.Handlers[k], p))
    else if k == 5 then d.(fan := Fan.HandleFanState(rt, d.fan, p))
    else d.(occupancy := Occupancy.HandleAwayState(rt, d.occupancy, p))
  }

  /** Running an entity handler on its device is the device's step. */
  lemma ApplyEntity(rt: Payload.Runtime, ds: seq<Device>, j: nat, k: nat, t: string, p: string)
    requires j < |ds| && k < 7
    ensures Apply(rt, ds, MqttClient.Call(EntityHandler(j, k), t, p)) == ds[j := Step(rt, ds[j], k, p)]
  {
  }

  /** Reading the same payload twice with one handler is reading it once. */
  lemma StepIdempotent(rt: Payload.Runtime, d: Device, k: nat, p: string)
    requires k < 7
    ensures Step(rt, Step(rt, d, k, p), k, p) == Step(rt, d, k, p)
  {
  }

  /** Reference: the handlers of entity field `k` of the devices whose serial is `s`, in device order. */
  function FieldHandlers(entries: seq<ConfigFlow.DeviceEntry>, s: string, k: nat): (hs: seq<Handler>)
    requires k < 7
    ensures forall i :: 0 <= i < |hs| ==>
              && hs[i].device < |entries| && hs[i] == EntityHandler(hs[i].device, k)
              && entries[hs[i].device].serial == s
    ensures forall j :: 0 <= j < |entries| ==> (EntityHandler(j, k) in hs <==> entries[j].serial == s)
    decreases |entries|
  {
    if |entries| == 0 then []
    else
      var n := |entries| - 1;
      FieldHandlers(entries[..n], s, k) + (if entries[n].serial == s then [EntityHandler(n, k)] else [])
  }

  /** Of one device's registrations, only the handler of field `k` listens on field `k`'s topic of its own serial. */
  lemma EntityFieldMatching(prefix: string, serial: string, j: nat, s: string, k: nat)
    requires k < 7
    ensures MqttClient.Matching(EntitySubscriptions(prefix, serial, j),
                                MqttClient.GetTopic(prefix, s, MqttClient.EntityFields[k].0, MqttClient.EntityFields[k].1))
            == (if serial == s then [EntityHandler(j, k)] else [])
  {
    var subs := EntitySubscriptions(prefix, serial, j);
    var ef := MqttClient.EntityFields;
    var t := MqttClient.GetTopic(prefix, s, ef[k].0, ef[k].1);
    MqttClient.EntityFieldsWellFormed();
    forall i | 0 <= i < 7 && i != k
      ensures subs[i].0 != t
    {
      if subs[i].0 == t {
        MqttClient.FieldSeparates(prefix, serial, ef[i].0, ef[i].1, s, ef[k].0, ef[k].1);
      }
    }
    if serial != s && subs[k].0 == t {
      MqttClient.SerialSeparates(prefix, serial, s, ef[k].0, ef[k].1);
    }
    var a, b := subs[..k], subs[k + 1..];
    assert subs == a + [subs[k]] + b;
    assert forall i :: 0 <= i < |b| ==> b[i] == subs[k + 1 + i];
    MqttClient.MatchingNone(a, t);
    MqttClient.MatchingNone(b, t);
    assert [subs[k]][..0] == [];
    MqttClient.MatchingAppend(a, [subs[k]], t);
    MqttClient.MatchingAppend(a + [subs[k]], b, t);
  }

  /** Across all devices, field `k`'s topic of serial `s` reaches exactly the field-`k` handlers of serial `s`. */
  lemma {:induction false} FieldMatching(prefix: string, entries: seq<ConfigFlow.DeviceEntry>, s: string, k: nat)
    requires k < 7
    ensures MqttClient.Matching(AllSubscriptions(prefix, entries),
                                MqttClient.GetTopic(prefix, s, MqttClient.EntityFields[k].0, MqttClient.EntityFields[k].1))
            == FieldHandlers(entries, s, k)
    decreases |entries|
  {
    if |entries| > 0 {
      var n := |entries| - 1;
      var t := MqttClient.GetTopic(prefix, s, MqttClient.EntityFields[k].0, MqttClient.EntityFields[k].1);
      FieldMatching(prefix, entries[..n], s, k);
      EntityFieldMatching(prefix, entries[n].serial, n, s, k);
      MqttClient.MatchingAppend(AllSubscriptions(prefix, entries[..n]), EntitySubscriptions(prefix, entries[n].serial, n), t);
    }
  }

  /**
   * Running the calls of field-`k` handlers with one payload steps exactly
   * the devices named, as a single read of the payload would.
   */
  lemma {:induction false} FieldCallsEffect(rt: Payload.Runtime, ds: seq<Device>, hs: seq<Handler>, t: string, p: string, k: nat)
    requires k < 7
    requires forall i :: 0 <= i < |hs| ==> hs[i].device < |ds| && hs[i] == EntityHandler(hs[i].device, k)
    ensures var r := ApplyAll(rt, ds, MqttClient.CallsTo(hs, t, p));
            forall j :: 0 <= j < |ds| ==>
              r[j] == (if EntityHandler(j, k) in hs then Step(rt, ds[j], k, p) else ds[j])
    decreases |hs|
  {
    var calls := MqttClient.CallsTo(hs, t, p);
    if |hs| > 0 {
      var n := |hs| - 1;
      var h := hs[n];
      assert calls[..n] == MqttClient.CallsTo(hs[..n], t, p);
      FieldCallsEffect(rt, ds, hs[..n], t, p, k);
      var before := ApplyAll(rt, ds, calls[..n]);
      assert calls[n] == MqttClient.Call(EntityHandler(h.device, k), t, p);
      ApplyEntity(rt, before, h.device, k, t, p);
      forall j | 0 <= j < |ds|
        ensures ApplyAll(rt, ds, calls)[j] == (if EntityHandler(j, k) in hs then Step(rt, ds[j], k, p) else ds[j])
      {
        assert hs == hs[..n] + [h];
        StepIdempotent(rt, ds[j], k, p);
      }
    }
  }

  /**
   * A message on the topic of entity field `k` for serial `s` steps, with
   * that field's handler, every device configured with serial `s`, and
   * changes nothing else, whatever characters the serials hold.
   */
  lemma FieldMessageReachesItsEntities(
    rt: Payload.Runtime, sys: System, entries: seq<ConfigFlow.DeviceEntry>, s: string, k: nat, p: string)
    requires Wired(sys, entries) && k < 7
    ensures var t := MqttClient.GetTopic(sys.client.prefix, s, MqttClient.EntityFields[k].0, MqttClient.EntityFields[k].1);
            var r := Deliver(rt, sys, t, p);
            forall j :: 0 <= j < |sys.devices| ==>
              r.devices[j] == (if entries[j].serial == s then Step(rt, sys.devices[j], k, p) else sys.devices[j])
  {
    var t := MqttClient.GetTopic(sys.client.prefix, s, MqttClient.EntityFields[k].0, MqttClient.EntityFields[k].1);
    WiredDispatch(sys, entries, t, p);
    FieldMatching(sys.client.prefix, entries, s, k);
    FieldCallsEffect(rt, sys.devices, FieldHandlers(entries, s, k), t, p, k);
  }

  /**
   * A message on the away topic of serial `s` updates the occupancy sensor
   * of every device configured with that serial, as its handler would, and
   * changes nothing else, whatever characters the serials hold.
   */
  lemma AwayMessageReachesItsSensors(rt: Payload.Runtime, sys: System, entries: seq<ConfigFlow.DeviceEntry>, s: string, p: string)
    requires Wired(sys, entries)
    ensures var r := Deliver(rt, sys, Occupancy.SubscribedTopic(sys.client.prefix, s), p);
            forall j :: 0 <= j < |sys.devices| ==>
              r.devices[j] == (if entries[j].serial == s
                               then sys.devices[j].(occupancy := Occupancy.HandleAwayState(rt, sys.devices[j].occupancy, p))
                               else sys.devices[j])
  {
    FieldMessageReachesItsEntities(rt, sys, entries, s, 6, p);
  }

  // ---------------------------------------------------------------- commands

  datatype Command =
    | SetTemperature(device: nat, temp: Option<real>, low: Option<real>, high: Option<real>)
    | SetHvacMode(device: nat, mode: Climate.HvacMode)
    | TurnOnFan(device: nat)
    | TurnOffFan(device: nat)

  /**
   * A user command on one device's entity. Commands are fire-and-forget:
   * they only append to the publish trace and never touch any device's state.
   */
  function Execute(rt: Payload.Runtime, sys: System, cmd: Command): (r: System)
    requires cmd.device < |sys.devices|
    ensures r.devices == sys.devices
    ensures r.client.prefix == sys.client.prefix && r.client.hasClient == sys.client.hasClient
    ensures r.client.callbacks == sys.client.callbacks
    ensures |r.client.sent| >= |sys.client.sent| && r.client.sent[..|sys.client.sent|] == sys.client.sent
    ensures forall entries :: Wired(sys, entries) ==> Wired(r, entries)
  {
    var d := sys.devices[cmd.device];
    var cl := match cmd
      case SetTemperature(_, temp, low, high) => Climate.SetTemperature(rt, sys.client, d.climate, temp, low, high)
      case SetHvacMode(_, mode) => Climate.SetHvacMode(rt, sys.client, d.climate, mode)
      case TurnOnFan(_) => Fan.TurnOn(rt, sys.client, d.fan)
      case TurnOffFan(_) => Fan.TurnOff(rt, sys.client, d.fan);
    sys.(client := cl)
  }

  /**
   * No message a command publishes is on a topic any entity listens to,
   * whatever characters the serials hold: commands are never dispatched back.
   */
  lemma CommandsAreNotDispatched(
    rt: Payload.Runtime, sys: System, entries: seq<ConfigFlow.DeviceEntry>, cmd: Command, payload: string)
    requires Wired(sys, entries) && cmd.device < |sys.devices|
    ensures var r := Execute(rt, sys, cmd);
            forall k :: |sys.client.sent| <= k < |r.client.sent| ==>
              MqttClient.OnMessage(sys.client, r.client.sent[k].topic, payload) == []
  {
    var r := Execute(rt, sys, cmd);
    var prefix := sys.client.prefix;
    var subs := AllSubscriptions(prefix, entries);
    RegisteredTopicsAreEntityTopics(prefix, entries);
    MqttClient.EntityFieldsWellFormed();
    forall k | |sys.client.sent| <= k < |r.client.sent|
      ensures MqttClient.OnMessage(sys.client, r.client.sent[k].topic, payload) == []
    {
      var t := r.client.sent[k].topic;
      var f := CommandField(rt, sys, cmd, k);
      forall i | 0 <= i < |subs|
        ensures subs[i].0 != t
      {
        assert IsEntityTopic(prefix, subs[i].0);
        var ef := MqttClient.EntityFields;
        var serial: string, m: nat :| m < 7 && subs[i].0 == MqttClient.GetTopic(prefix, serial, ef[m].0, ef[m].1);
        MqttClient.CommandTopicIsNotStateTopic(prefix, f.0, f.1, f.2, serial, ef[m].0, ef[m].1);
      }
      MqttClient.MatchingNone(subs, t);
      WiredDispatch(sys, entries, t, payload);
    }
  }

  /**
   * The (serial, object type, field) of the `k`-th message a command
   * sends: its topic is that field's command topic.
   */
  function CommandField(rt: Payload.Runtime, sys: System, cmd: Command, k: nat): (f: (string, string, string))
    requires cmd.device < |sys.devices|
    requires |sys.client.sent| <= k < |Execute(rt, sys, cmd).client.sent|
    ensures Execute(rt, sys, cmd).client.sent[k].topic == MqttClient.GetSetTopic(sys.client.prefix, f.0, f.1, f.2)
    ensures f.0 == sys.devices[cmd.device].climate.serial || f.0 == sys.devices[cmd.device].fan.serial
    ensures f.1 == "shared" || f.1 == "device"
    ensures || f.2 == "target_temperature" || f.2 == "target_temperature_low" || f.2 == "target_temperature_high"
            || f.2 == "target_temperature_type" || f.2 == "fan_timer_active"
  {
    var d := sys.devices[cmd.device];
    match cmd
    case SetTemperature(_, temp, low, high) =>
      (d.climate.serial, "shared", Climate.TemperatureCommands(temp, low, high)[k - |sys.client.sent|].0)
    case SetHvacMode(_, _) => (d.climate.serial, "shared", "target_temperature_type")
    case TurnOnFan(_) => (d.fan.serial, "device", "fan_timer_active")
    case TurnOffFan(_) => (d.fan.serial, "device", "fan_timer_active")
  }
}

=== FILE: mqtt_client.dfy ===
/**
 * The integration's MQTT client: the topic -> callbacks registry, inbound
 * fan-out, outbound publishing and topic construction. The broker
 * connection itself is not modelled; whether a paho client exists is the
 * flag `hasClient`, and every publish the client hands to the broker is
 * appended to the trace `sent`.
 */
module MqttClient {
  import opened Wrappers
  import Text
  import Payload

  const DefaultPrefix: string := "nest"

  /** Every publish is made at MQTT quality-of-service level 1. */
  const Qos: nat := 1

  /** One message handed to the broker. */
  datatype Message = Message(topic: string, payload: string, qos: nat)

  /** One callback invocation made while dispatching an inbound message. */
  datatype Call<C> = Call(callback: C, topic: string, payload: string)

  /** The values the entities publish: text, booleans, integers and floats. */
  datatype Outbound = OutText(s: string) | OutBool(b: bool) | OutInt(i: int) | OutFloat(r: real)

  /**
   * The client: its topic prefix, whether a paho client exists, the
   * callbacks registered per topic, and the messages published so far.
   */
  datatype Client<C> = Client(
    prefix: string,
    hasClient: bool,
    callbacks: map<string, seq<C>>,
    sent: seq<Message>)

  /** A freshly constructed client: no paho client yet and no callbacks. */
  function NewClient<C>(prefix: Option<string>): (cl: Client<C>)
    ensures cl.prefix == prefix.GetOr(DefaultPrefix)
    ensures !cl.hasClient && cl.callbacks == map[] && cl.sent == []
  {
    Client(prefix.GetOr(DefaultPrefix), false, map[], [])
  }

  // ---------------------------------------------------------------- topics

  /** `get_topic`: `prefix/serial/object_type/field`. */
  function GetTopic(prefix: string, serial: string, objectType: string, field: string): (t: string)
    ensures |t| == |prefix| + |serial| + |objectType| + |field| + 3
    ensures t[..|prefix| + 1] == prefix + "/"
    ensures t[|t| - |field| - 1..] == "/" + field
  {
    prefix + "/" + serial + "/" + objectType + "/" + field
  }

  /** `get_set_topic`: the command form of a field's topic is its state topic followed by "/set". */
  function GetSetTopic(prefix: string, serial: string, objectType: string, field: string): (t: string)
    ensures t == GetTopic(prefix, serial, objectType, field) + "/set"
  {
    prefix + "/" + serial + "/" + objectType + "/" + field + "/set"
  }

  /** The availability topic, which has no object-type segment. */
  function AvailabilityTopic(prefix: string, serial: string): string {
    prefix + "/" + serial + "/availability"
  }

  predicate SlashFree(s: string) { '/' !in s }

  /** Each topic form, split at its last '/'. */
  lemma LastSegments(prefix: string, serial: string, objectType: string, field: string)
    ensures GetTopic(prefix, serial, objectType, field) == (prefix + "/" + serial + "/" + objectType) + ['/'] + field
    ensures GetSetTopic(prefix, serial, objectType, field) == GetTopic(prefix, serial, objectType, field) + ['/'] + "set"
    ensures AvailabilityTopic(prefix, serial) == (prefix + "/" + serial) + ['/'] + "availability"
  {
  }

  /** Two state topics with separator-free fields are equal only if their fields are. */
  lemma FieldSeparates(prefix: string, s: string, o: string, f: string, s': string, o': string, f': string)
    requires SlashFree(f) && SlashFree(f')
    requires GetTopic(prefix, s, o, f) == GetTopic(prefix, s', o', f')
    ensures f == f'
  {
    LastSegments(prefix, s, o, f);
    LastSegments(prefix, s', o', f');
    Text.SplitAtLast(prefix + "/" + s + "/" + o, f, prefix + "/" + s' + "/" + o', f', '/');
  }

  /** For one object type and field, the topic determines the serial, whatever characters it holds. */
  lemma SerialSeparates(prefix: string, s: string, s': string, o: string, f: string)
    requires GetTopic(prefix, s, o, f) == GetTopic(prefix, s', o, f)
    ensures s == s'
  {
    var t := GetTopic(prefix, s, o, f);
    var head := prefix + "/";
    assert t == head + s + ("/" + o + "/" + f);
    assert t == head + s' + ("/" + o + "/" + f);
    assert s == t[|head|..|head| + |s|];
    assert s' == t[|head|..|head| + |s'|];
  }

  /**
   * Under one prefix, distinct (serial, object type, field) triples give
   * distinct topics as long as serial and object type contain no '/'.
   */
  lemma GetTopicInjective(prefix: string, s: string, o: string, f: string, s': string, o': string, f': string)
    requires SlashFree(s) && SlashFree(o) && SlashFree(s') && SlashFree(o')
    requires GetTopic(prefix, s, o, f) == GetTopic(prefix, s', o', f')
    ensures s == s' && o == o' && f == f'
  {
    var head := prefix + "/";
    var x := GetTopic(prefix, s, o, f);
    assert x == head + (s + "/" + (o + "/" + f));
    assert x == head + (s' + "/" + (o' + "/" + f'));
    assert s + "/" + (o + "/" + f) == x[|head|..] == s' + "/" + (o' + "/" + f');
    Text.SplitAtFirst(s, o + "/" + f, s', o' + "/" + f', '/');
    Text.SplitAtFirst(o, f, o', f', '/');
  }

  /** The number of '/' in a topic built from separator-free parts. */
  lemma TopicSlashCounts(prefix: string, serial: string, objectType: string, field: string)
    requires SlashFree(serial) && SlashFree(objectType) && SlashFree(field)
    ensures Text.Count(GetTopic(prefix, serial, objectType, field), '/') == Text.Count(prefix, '/') + 3
    ensures Text.Count(GetSetTopic(prefix, serial, objectType, field), '/') == Text.Count(prefix, '/') + 4
    ensures Text.Count(AvailabilityTopic(prefix, serial), '/') == Text.Count(prefix, '/') + 2
  {
    var a := prefix + "/" + serial;
    var b := a + "/" + objectType;
    var t := b + "/" + field;
    Text.CountJoin(prefix, serial, '/');
    Text.CountJoin(a, objectType, '/');
    Text.CountJoin(b, field, '/');
    SuffixesSlashFree();
    SuffixAddsOneSlash(t, "set");
    assert GetSetTopic(prefix, serial, objectType, field) == t + "/" + "set";
    SuffixAddsOneSlash(a, "availability");
    assert AvailabilityTopic(prefix, serial) == a + "/" + "availability";
  }

  lemma SuffixesSlashFree()
    ensures SlashFree("set") && SlashFree("availability")
  {
  }

  lemma SuffixAddsOneSlash(a: string, suffix: string)
    requires SlashFree(suffix)
    ensures Text.Count(a + "/" + suffix, '/') == Text.Count(a, '/') + 1
  {
    Text.CountJoin(a, suffix, '/');
  }

  /**
   * A command topic is never a state topic whose field is not "set", nor an
   * availability topic, of the same client, whatever the serials hold:
   * what the integration publishes is not fed back to it.
   */
  lemma CommandTopicIsNotStateTopic(prefix: string, s: string, o: string, f: string, s': string, o': string, f': string)
    requires SlashFree(f') && f' != "set"
    ensures GetSetTopic(prefix, s, o, f) != GetTopic(prefix, s', o', f')
    ensures GetSetTopic(prefix, s, o, f) != AvailabilityTopic(prefix, s')
  {
    var t := GetTopic(prefix, s, o, f);
    LastSegments(prefix, s, o, f);
    LastSegments(prefix, s', o', f');
    if GetSetTopic(prefix, s, o, f) == GetTopic(prefix, s', o', f') {
      Text.SplitAtLast(t, "set", prefix + "/" + s' + "/" + o', f', '/');
    }
    if GetSetTopic(prefix, s, o, f) == AvailabilityTopic(prefix, s') {
      Text.SplitAtLast(t, "set", prefix + "/" + s', "availability", '/');
    }
  }

  // ---------------------------------------------------------------- registry

  /** The callbacks registered for `topic`, in registration order. */
  function Registered<C>(cl: Client<C>, topic: string): seq<C> {
    if topic in cl.callbacks then cl.callbacks[topic] else []
  }

  /**
   * `subscribe`: append `cb` to the list of `topic`, creating the list on
   * first use; no de-duplication, every other topic untouched.
   */
  function Subscribe<C>(cl: Client<C>, topic: string, cb: C): (r: Client<C>)
    ensures Registered(r, topic) == Registered(cl, topic) + [cb]
    ensures forall t :: t != topic ==> Registered(r, t) == Registered(cl, t)
    ensures r.callbacks.Keys == cl.callbacks.Keys + {topic}
    ensures r.prefix == cl.prefix && r.hasClient == cl.hasClient && r.sent == cl.sent
  {
    cl.(callbacks := cl.callbacks[topic := Registered(cl, topic) + [cb]])
  }

  /** A sequence of `subscribe` calls, made in order. */
  function SubscribeAll<C>(cl: Client<C>, subs: seq<(string, C)>): (r: Client<C>)
    ensures r.prefix == cl.prefix && r.hasClient == cl.hasClient && r.sent == cl.sent
    decreases |subs|
  {
    if |subs| == 0 then cl
    else
      var last := subs[|subs| - 1];
      Subscribe(SubscribeAll(cl, subs[..|subs| - 1]), last.0, last.1)
  }

  /** Reference: the callbacks of `subs` whose topic is exactly `topic`, in order. */
  function Matching<C>(subs: seq<(string, C)>, topic: string): seq<C>
    decreases |subs|
  {
    if |subs| == 0 then []
    else
      var last := subs[|subs| - 1];
      Matching(subs[..|subs| - 1], topic) + (if last.0 == topic then [last.1] else [])
  }

  /**
   * After a series of subscriptions a topic's list is its earlier list
   * followed by exactly the callbacks subscribed under that identical
   * topic string, in subscription order.
   */
  lemma {:induction false} SubscribeAllRecords<C>(cl: Client<C>, subs: seq<(string, C)>, topic: string)
    ensures Registered(SubscribeAll(cl, subs), topic) == Registered(cl, topic) + Matching(subs, topic)
    decreases |subs|
  {
    if |subs| > 0 {
      SubscribeAllRecords(cl, subs[..|subs| - 1], topic);
    }
  }

  /** Matching distributes over concatenation of subscription lists. */
  lemma {:induction false} MatchingAppend<C>(a: seq<(string, C)>, b: seq<(string, C)>, topic: string)
    ensures Matching(a + b, topic) == Matching(a, topic) + Matching(b, topic)
    decreases |b|
  {
    if |b| > 0 {
      assert (a + b)[..|a + b| - 1] == a + b[..|b| - 1];
      MatchingAppend(a, b[..|b| - 1], topic);
    } else {
      assert a + b == a;
    }
  }

  /** No subscription under `topic`, no callback for it. */
  lemma {:induction false} MatchingNone<C>(subs: seq<(string, C)>, topic: string)
    requires forall k :: 0 <= k < |subs| ==> subs[k].0 != topic
    ensures Matching(subs, topic) == []
    decreases |subs|
  {
    if |subs| > 0 {
      MatchingNone(subs[..|subs| - 1], topic);
    }
  }

  /**
   * `_on_message`: one call per callback registered under the identical
   * topic, in registration order, each with the same topic and payload.
   */
  function OnMessage<C>(cl: Client<C>, topic: string, payload: string): (calls: seq<Call<C>>)
    ensures |calls| == |Registered(cl, topic)|
    ensures topic !in cl.callbacks ==> calls == []
    ensures forall i :: 0 <= i < |calls| ==>
              calls[i].callback == Registered(cl, topic)[i] && calls[i].topic == topic && calls[i].payload == payload
  {
    var cbs := Registered(cl, topic);
    seq(|cbs|, i requires 0 <= i < |cbs| => Call(cbs[i], topic, payload))
  }

  /**
   * Dispatch after a series of subscriptions: the earlier calls, then one
   * call per matching subscription in the order the subscriptions were made.
   */
  lemma DispatchFollowsSubscriptions<C>(cl: Client<C>, subs: seq<(string, C)>, topic: string, payload: string)
    ensures OnMessage(SubscribeAll(cl, subs), topic, payload)
            == OnMessage(cl, topic, payload) + CallsTo(Matching(subs, topic), topic, payload)
  {
    SubscribeAllRecords(cl, subs, topic);
  }

  /** One call per callback, all with the same topic and payload. */
  function CallsTo<C>(cbs: seq<C>, topic: string, payload: string): (calls: seq<Call<C>>)
    ensures |calls| == |cbs|
  {
    seq(|cbs|, i requires 0 <= i < |cbs| => Call(cbs[i], topic, payload))
  }

  // ---------------------------------------------------------------- publish

  /** `str(payload)` for non-strings, the string itself otherwise. */
  function Render(rt: Payload.Runtime, v: Outbound): (s: string)
    ensures v.OutText? ==> s == v.s
    ensures v.OutBool? ==> s == (if v.b then "True" else "False")
    ensures v.OutInt? ==> |s| >= 1 && (s[0] == '-' <==> v.i < 0) && Text.AllDigits(if v.i < 0 then s[1..] else s)
    ensures v.OutFloat? ==> s == rt.showFloat(v.r)
  {
    match v
    case OutText(s) => s
    case OutBool(b) => if b then "True" else "False"
    case OutInt(i) => Text.IntToString(i)
    case OutFloat(r) => rt.showFloat(r)
  }

  /** Strings pass unchanged; booleans and integers render without collisions. */
  lemma RenderFaithful(rt: Payload.Runtime, v: Outbound, w: Outbound)
    ensures v.OutText? ==> Render(rt, v) == v.s
    ensures v.OutBool? ==> Render(rt, v) == (if v.b then "True" else "False")
    ensures v.OutBool? && w.OutBool? && Render(rt, v) == Render(rt, w) ==> v == w
    ensures v.OutInt? && w.OutInt? && Render(rt, v) == Render(rt, w) ==> v == w
    ensures v.OutInt? && v.i < 0 ==> Text.ParseDigits(Render(rt, v)[1..]) == -v.i
    ensures v.OutInt? && v.i >= 0 ==> Text.ParseDigits(Render(rt, v)) == v.i
  {
    if v.OutInt? {
      Text.IntToStringReadsBack(v.i);
    }
    if v.OutInt? && w.OutInt? && Render(rt, v) == Render(rt, w) {
      Text.IntToStringInjective(v.i, w.i);
    }
  }

  /**
   * `publish`: without a paho client nothing is sent; otherwise exactly one
   * message, with the rendered payload at QoS 1, is appended to the trace.
   */
  function Publish<C>(rt: Payload.Runtime, cl: Client<C>, topic: string, v: Outbound): (r: Client<C>)
    ensures r.prefix == cl.prefix && r.hasClient == cl.hasClient && r.callbacks == cl.callbacks
    ensures !cl.hasClient ==> r.sent == cl.sent
    ensures cl.hasClient ==> r.sent == cl.sent + [Message(topic, Render(rt, v), Qos)]
  {
    if !cl.hasClient then cl
    else cl.(sent := cl.sent + [Message(topic, Render(rt, v), Qos)])
  }

  // ---------------------------------------------------------------- broker subscriptions

  /** The eight topics subscribed at the broker for one device, as listed in the client. */
  function DeviceTopics(prefix: string, serial: string): (ts: seq<string>)
    ensures |ts| == 8
  {
    var head := prefix + "/" + serial + "/";
    seq(8, k requires 0 <= k < 8 => head + DeviceTopicSuffixes[k])
  }

  /** The per-device topic suffixes, in the order the client subscribes them. */
  const DeviceTopicSuffixes: seq<string> := [
    "device/current_temperature",
    "shared/target_temperature",
    "shared/target_temperature_low",
    "shared/target_temperature_high",
    "shared/target_temperature_type",
    "device/fan_timer_active",
    "device/away",
    "availability"]

  /** The (object type, field) pairs the entities read, in the order of `DeviceTopics`. */
  const EntityFields: seq<(string, string)> := [
    ("device", "current_temperature"),
    ("shared", "target_temperature"),
    ("shared", "target_temperature_low"),
    ("shared", "target_temperature_high"),
    ("shared", "target_temperature_type"),
    ("device", "fan_timer_active"),
    ("device", "away")]

  /**
   * The first seven broker topics are exactly `get_topic` of the entity
   * fields; the eighth is the three-segment availability topic.
   */
  lemma DeviceTopicsAreEntityTopics(prefix: string, serial: string)
    ensures forall k :: 0 <= k < 7 ==>
              DeviceTopics(prefix, serial)[k] == GetTopic(prefix, serial, EntityFields[k].0, EntityFields[k].1)
    ensures DeviceTopics(prefix, serial)[7] == AvailabilityTopic(prefix, serial)
  {
    var ts := DeviceTopics(prefix, serial);
    forall k | 0 <= k < 7
      ensures ts[k] == GetTopic(prefix, serial, EntityFields[k].0, EntityFields[k].1)
    {
      var o := EntityFields[k].0;
      var f := EntityFields[k].1;
      JoinTopic(prefix, serial, o, f);
      assert ts[k] == prefix + "/" + serial + "/" + (o + "/" + f) by {
        EntityFieldLiteral(k);
      }
    }
  }

  /** Each literal suffix of `DeviceTopics` is "object_type/field" of the matching entity field. */
  lemma EntityFieldLiteral(k: nat)
    requires k < 7
    ensures EntityFields[k].0 + "/" + EntityFields[k].1 == DeviceTopicSuffixes[k]
  {
    if k == 0 {
      assert "device" + "/" + "current_temperature" == "device/current_temperature";
    } else if k == 1 {
      assert "shared" + "/" + "target_temperature" == "shared/target_temperature";
    } else if k == 2 {
      assert "shared" + "/" + "target_temperature_low" == "shared/target_temperature_low";
    } else if k == 3 {
      assert "shared" + "/" + "target_temperature_high" == "shared/target_temperature_high";
    } else if k == 4 {
      assert "shared" + "/" + "target_temperature_type" == "shared/target_temperature_type";
    } else if k == 5 {
      assert "device" + "/" + "fan_timer_active" == "device/fan_timer_active";
    } else {
      assert "device" + "/" + "away" == "device/away";
    }
  }

  /** A topic is the device's head followed by "object_type/field". */
  lemma JoinTopic(prefix: string, serial: string, objectType: string, field: string)
    ensures prefix + "/" + serial + "/" + (objectType + "/" + field) == GetTopic(prefix, serial, objectType, field)
  {
  }

  /** The entity fields name seven distinct, separator-free (object type, field) pairs. */
  lemma EntityFieldsWellFormed()
    ensures forall k :: 0 <= k < 7 ==> SlashFree(EntityFields[k].0) && SlashFree(EntityFields[k].1)
    ensures forall j, k :: 0 <= j < k < 7 ==> EntityFields[j].1 != EntityFields[k].1
    ensures forall k :: 0 <= k < 7 ==> EntityFields[k].1 != "set" && EntityFields[k].1 != "availability"
  {
  }

  /** The eight topics of a device are pairwise distinct, whatever characters the serial holds. */
  lemma DeviceTopicsDistinct(prefix: string, serial: string)
    ensures forall j, k :: 0 <= j < k < 8 ==> DeviceTopics(prefix, serial)[j] != DeviceTopics(prefix, serial)[k]
  {
    var ts := DeviceTopics(prefix, serial);
    var head := prefix + "/" + serial + "/";
    DeviceTopicSuffixesDistinct();
    forall j, k | 0 <= j < k < 8
      ensures ts[j] != ts[k]
    {
      assert ts[j][|head|..] == DeviceTopicSuffixes[j];
      assert ts[k][|head|..] == DeviceTopicSuffixes[k];
    }
  }

  lemma DeviceTopicSuffixesDistinct()
    ensures forall j, k :: 0 <= j < k < 8 ==> DeviceTopicSuffixes[j] != DeviceTopicSuffixes[k]
  {
  }

  /** `if not serial: continue` — a device is skipped when its serial is missing or empty. */
  predicate HasSerial(serial: Option<string>) {
    serial.Some? && |serial.value| > 0
  }

  /** Number of devices that have a serial. */
  function SerialCount(devices: seq<Option<string>>): (n: nat)
    ensures n <= |devices|
    decreases |devices|
  {
    if |devices| == 0 then 0
    else SerialCount(devices[..|devices| - 1]) + (if HasSerial(devices[|devices| - 1]) then 1 else 0)
  }

  /** Reference: the broker topics of every device that has a serial, device by device. */
  function BrokerTopics(prefix: string, devices: seq<Option<string>>): (ts: seq<string>)
    ensures |ts| == 8 * SerialCount(devices)
    decreases |devices|
  {
    if |devices| == 0 then []
    else
      var last := devices[|devices| - 1];
      BrokerTopics(prefix, devices[..|devices| - 1]) + (if HasSerial(last) then DeviceTopics(prefix, last.value) else [])
  }

  /** Every broker topic belongs to one device that has a serial, and each such device's topics all occur. */
  lemma {:induction false} BrokerTopicsMembership(prefix: string, devices: seq<Option<string>>, t: string)
    ensures t in BrokerTopics(prefix, devices) <==>
              exists k :: 0 <= k < |devices| && HasSerial(devices[k]) && t in DeviceTopics(prefix, devices[k].value)
    decreases |devices|
  {
    if |devices| > 0 {
      var init := devices[..|devices| - 1];
      BrokerTopicsMembership(prefix, init, t);
      if t in BrokerTopics(prefix, devices) {
        if t in BrokerTopics(prefix, init) {
          var k :| 0 <= k < |init| && HasSerial(init[k]) && t in DeviceTopics(prefix, init[k].value);
          assert devices[k] == init[k];
        } else {
          assert HasSerial(devices[|devices| - 1]);
        }
      }
      if exists k :: 0 <= k < |devices| && HasSerial(devices[k]) && t in DeviceTopics(prefix, devices[k].value) {
        var k :| 0 <= k < |devices| && HasSerial(devices[k]) && t in DeviceTopics(prefix, devices[k].value);
        if k < |init| {
          assert init[k] == devices[k];
        }
      }
    }
  }

  /**
   * `_subscribe_to_topics`: nothing without a paho client; otherwise the
   * eight topics of each device that has a serial, device by device.
   */
  method SubscribeToTopics<C>(cl: Client<C>, devices: seq<Option<string>>) returns (topics: seq<string>)
    ensures !cl.hasClient ==> topics == []
    ensures cl.hasClient ==> topics == BrokerTopics(cl.prefix, devices)
    ensures cl.hasClient ==> |topics| == 8 * SerialCount(devices)
  {
    topics := [];
    if !cl.hasClient {
      return;
    }
    var i := 0;
    while i < |devices|
      invariant 0 <= i <= |devices|
      invariant topics == BrokerTopics(cl.prefix, devices[..i])
    {
      var serial := devices[i];
      assert devices[..i + 1][..i] == devices[..i];
      if serial.Some? && |serial.value| > 0 {
        var deviceTopics := DeviceTopics(cl.prefix, serial.value);
        var j := 0;
        while j < |deviceTopics|
          invariant 0 <= j <= |deviceTopics|
          invariant topics == BrokerTopics(cl.prefix, devices[..i]) + deviceTopics[..j]
        {
          topics := topics + [deviceTopics[j]];
          j := j + 1;
        }
        assert deviceTopics[..j] == deviceTopics;
      }
      i := i + 1;
    }
    assert devices[..i] == devices;
  }
}

=== FILE: occupancy.dfy ===
/** The thermostat's occupancy sensor: the negation of the device's away flag. */
module Occupancy {
  import opened Wrappers
  import Text
  import Payload
  import MqttClient
  import Fan

  datatype State = State(serial: string, occupied: bool)

  /** A new sensor reports occupied. */
  function Init(serial: string): (s: State)
    ensures s.serial == serial && s.occupied
  {
    State(serial, true)
  }

  /** The one topic the sensor registers a callback for. */
  function SubscribedTopic(prefix: string, serial: string): (t: string)
    ensures t == MqttClient.GetTopic(prefix, serial, MqttClient.EntityFields[6].0, MqttClient.EntityFields[6].1)
  {
    MqttClient.GetTopic(prefix, serial, "device", "away")
  }

  /**
   * `_handle_away_state`: after a decoded payload the sensor is occupied
   * exactly when the payload does not read as away — plain text other than
   * a case-insensitive "true", "1" or "on", or an empty list or object; a
   * malformed structured payload changes nothing.
   */
  function HandleAwayState(rt: Payload.Runtime, s: State, p: string): (r: State)
    ensures r.serial == s.serial
    ensures Payload.DecodeBool(rt, p).None? ==> r == s
    ensures Payload.DecodeBool(rt, p).Some? ==> r.occupied == !Payload.DecodeBool(rt, p).value
    ensures !Payload.LooksStructured(p) ==> (r.occupied <==> Text.Lower(p) !in Payload.TrueWords)
    ensures Payload.LooksStructured(p) && rt.loads(p).Some? ==> (r.occupied <==> Payload.Size(rt.loads(p).value) == 0)
  {
    match Payload.Decode(rt, p)
    case None => s
    case Some(v) => s.(occupied := !Payload.CoerceBool(v))
  }

  /**
   * Fan and sensor coerce alike: for any payload that decodes, the sensor
   * is occupied exactly when the fan would be off.
   */
  lemma OccupancyMirrorsFan(rt: Payload.Runtime, s: State, f: Fan.State, p: string)
    requires Payload.Decode(rt, p).Some?
    ensures HandleAwayState(rt, s, p).occupied == !Fan.HandleFanState(rt, f, p).isOn
  {
  }

  /** Away "true" and "1" mean not occupied; "false", "0" and "" mean occupied. */
  lemma AwayExamples(rt: Payload.Runtime, s: State)
    ensures !HandleAwayState(rt, s, "true").occupied && !HandleAwayState(rt, s, "1").occupied
    ensures HandleAwayState(rt, s, "false").occupied && HandleAwayState(rt, s, "0").occupied
    ensures HandleAwayState(rt, s, "").occupied
  {
    assert Text.Lower("true") == "true";
    assert Text.Lower("false") == "false";
    assert Text.Lower("1") == "1";
    assert Text.Lower("0") == "0";
  }
}

=== FILE: payload.dfy ===
/**
 * Decoding of inbound MQTT payloads as every entity handler does it: text
 * that starts with '{' or '[' goes through the JSON decoder, any other text
 * stays a string; and the boolean coercion shared by the fan and the
 * occupancy sensor.
 */
module Payload {
  import opened Wrappers
  import Text

  /** The Python values a payload can decode to. */
  datatype Value =
    | Null
    | Bool(b: bool)
    | Int(i: int)
    | Float(r: real)
    | Str(s: string)
    | List(items: seq<Value>)
    | Dict(members: seq<(string, Value)>)

  /**
   * What `json.loads` can return for a document whose first character is '{'
   * or '[': by the JSON grammar, an object or an array.
   */
  type Container = v: Value | v.List? || v.Dict? witness List([])

  /**
   * The Python runtime functions the handlers call and this model does not
   * re-implement: `json.loads` on structured text (`None` when it raises),
   * `float()` on plain text (`None` when it raises), and `str()` of a float.
   */
  datatype Runtime = Runtime(
    loads: string -> Option<Container>,
    toFloat: string -> Option<real>,
    showFloat: real -> string)

  /** `payload.startswith(("{", "["))` */
  predicate LooksStructured(p: string) {
    |p| > 0 && (p[0] == '{' || p[0] == '[')
  }

  /** Python truthiness, `bool(v)`. */
  predicate Truthy(v: Value) {
    match v
    case Null => false
    case Bool(b) => b
    case Int(i) => i != 0
    case Float(r) => r != 0.0
    case Str(s) => |s| > 0
    case List(items) => |items| > 0
    case Dict(members) => |members| > 0
  }

  /** The strings a handler reads as `True`, after lower-casing. */
  const TrueWords: set<string> := {"true", "1", "on"}

  /**
   * The decode step every handler starts with; `None` stands for the
   * `ValueError` a malformed structured payload raises.
   */
  function Decode(rt: Runtime, p: string): (r: Option<Value>)
    ensures !LooksStructured(p) ==> r == Some(Str(p))
    ensures LooksStructured(p) ==> (r.None? <==> rt.loads(p).None?)
    ensures LooksStructured(p) && rt.loads(p).Some? ==> r == Some(rt.loads(p).value)
    ensures r.Some? ==> r.value.Str? || r.value.List? || r.value.Dict?
  {
    if LooksStructured(p) then
      match rt.loads(p)
      case None => None
      case Some(c) => Some(c)
    else
      Some(Str(p))
  }

  /** The three-way boolean conversion of the fan and away handlers. */
  predicate CoerceBool(v: Value) {
    if v.Bool? then v.b
    else if v.Str? then Text.Lower(v.s) in TrueWords
    else Truthy(v)
  }

  /**
   * A payload read as a boolean, `None` when decoding fails. Plain text is
   * true exactly for a case-insensitive "true", "1" or "on"; a decoded list
   * or object is true exactly when it is non-empty.
   */
  function DecodeBool(rt: Runtime, p: string): (r: Option<bool>)
    ensures !LooksStructured(p) ==> r == Some(Text.Lower(p) in TrueWords)
    ensures LooksStructured(p) && rt.loads(p).None? ==> r.None?
    ensures LooksStructured(p) && rt.loads(p).Some? ==>
              r == Some(Size(rt.loads(p).value) > 0)
  {
    match Decode(rt, p)
    case None => None
    case Some(v) => Some(CoerceBool(v))
  }

  /** Number of elements of a decoded list or object. */
  function Size(c: Container): nat {
    if c.List? then |c.items| else |c.members|
  }

  /** The `isinstance(value, bool)` branch is unreachable from wire text. */
  lemma DecodeNeverBool(rt: Runtime, p: string)
    ensures Decode(rt, p).Some? ==> !Decode(rt, p).value.Bool?
  {
  }

  /** Concrete plain-text readings. */
  lemma PlainTextReadings(rt: Runtime)
    ensures DecodeBool(rt, "ON") == Some(true)
    ensures DecodeBool(rt, "True") == Some(true)
    ensures DecodeBool(rt, "1") == Some(true)
    ensures DecodeBool(rt, "On") == Some(true)
    ensures DecodeBool(rt, "") == Some(false)
    ensures DecodeBool(rt, "0") == Some(false)
    ensures DecodeBool(rt, "false") == Some(false)
    ensures DecodeBool(rt, "yes") == Some(false)
  {
    assert Text.Lower("ON") == "on";
    assert Text.Lower("True") == "true";
    assert Text.Lower("On") == "on";
    assert Text.Lower("1") == "1";
    assert Text.Lower("0") == "0";
    assert Text.Lower("false") == "false";
    assert Text.Lower("yes") == "yes";
  }
}

=== FILE: text.dfy ===
/**
 * String helpers the integration relies on: ASCII case mapping (`str.lower`,
 * `str.upper`), decimal rendering of integers (`str(int)`) with its parser,
 * and counting the '/' separators of MQTT topics.
 */
module Text {

  predicate IsUpperAscii(c: char) { 'A' <= c <= 'Z' }

  predicate IsLowerAscii(c: char) { 'a' <= c <= 'z' }

  predicate IsDigit(c: char) { '0' <= c <= '9' }

  function LowerChar(c: char): char {
    if IsUpperAscii(c) then (c as int + 32) as char else c
  }

  function UpperChar(c: char): char {
    if IsLowerAscii(c) then (c as int - 32) as char else c
  }

  /** `s.lower()` on the ASCII letters. */
  function Lower(s: string): (r: string)
    ensures |r| == |s|
    ensures forall i :: 0 <= i < |s| ==> r[i] == LowerChar(s[i])
  {
    seq(|s|, i requires 0 <= i < |s| => LowerChar(s[i]))
  }

  /** `s.upper()` on the ASCII letters. */
  function Upper(s: string): (r: string)
    ensures |r| == |s|
    ensures forall i :: 0 <= i < |s| ==> r[i] == UpperChar(s[i])
  {
    seq(|s|, i requires 0 <= i < |s| => UpperChar(s[i]))
  }

  /** Upper-casing leaves no lower-case letter and a second application changes nothing. */
  lemma UpperNormalises(s: string)
    ensures forall i :: 0 <= i < |s| ==> !IsLowerAscii(Upper(s)[i])
    ensures Upper(Upper(s)) == Upper(s)
  {
  }

  predicate AllDigits(s: string) {
    forall i :: 0 <= i < |s| ==> IsDigit(s[i])
  }

  function DigitChar(d: nat): (c: char)
    requires d < 10
    ensures IsDigit(c)
  {
    ('0' as int + d) as char
  }

  function DigitValue(c: char): (d: nat)
    requires IsDigit(c)
    ensures d < 10
  {
    c as int - '0' as int
  }

  /** `str(n)` for a natural number: decimal digits without leading zeros. */
  function NatToString(n: nat): (s: string)
    ensures |s| >= 1
    ensures AllDigits(s)
    ensures s[0] == '0' ==> n == 0
    decreases n
  {
    if n < 10 then [DigitChar(n)] else NatToString(n / 10) + [DigitChar(n % 10)]
  }

  /** `int(s)` for a string of decimal digits. */
  function ParseDigits(s: string): nat
    requires AllDigits(s)
    decreases |s|
  {
    if |s| == 0 then 0 else 10 * ParseDigits(s[..|s| - 1]) + DigitValue(s[|s| - 1])
  }

  /** Decimal rendering is undone by decimal parsing. */
  lemma {:induction false} ParseNatToString(n: nat)
    ensures ParseDigits(NatToString(n)) == n
    decreases n
  {
    var s := NatToString(n);
    if n >= 10 {
      ParseNatToString(n / 10);
      assert s[..|s| - 1] == NatToString(n / 10);
    }
  }

  /** `str(i)` for any integer: a minus sign before the digits of a negative value. */
  function IntToString(i: int): (s: string)
    ensures |s| >= 1
    ensures s[0] == '-' <==> i < 0
    ensures AllDigits(if i < 0 then s[1..] else s)
  {
    if i < 0 then "-" + NatToString(-i) else NatToString(i)
  }

  /** Decimal parsing of the digits after the sign gives back the magnitude. */
  lemma IntToStringReadsBack(i: int)
    ensures i < 0 ==> ParseDigits(IntToString(i)[1..]) == -i
    ensures i >= 0 ==> ParseDigits(IntToString(i)) == i
  {
    if i < 0 {
      assert IntToString(i)[1..] == NatToString(-i);
      ParseNatToString(-i);
    } else {
      ParseNatToString(i);
    }
  }

  /** Distinct integers render to distinct strings. */
  lemma IntToStringInjective(i: int, j: int)
    requires IntToString(i) == IntToString(j)
    ensures i == j
  {
    // The sign is visible in the first character, since digits are not '-'.
    assert i < 0 <==> j < 0;
    IntToStringReadsBack(i);
    IntToStringReadsBack(j);
  }

  /** Number of occurrences of `c` in `s`. */
  function Count(s: string, c: char): (n: nat)
    ensures n <= |s|
    ensures c !in s ==> n == 0
  {
    if |s| == 0 then 0 else Count(s[1..], c) + (if s[0] == c then 1 else 0)
  }

  lemma {:induction false} CountAppend(a: string, b: string, c: char)
    ensures Count(a + b, c) == Count(a, c) + Count(b, c)
    decreases |a|
  {
    if |a| > 0 {
      assert (a + b)[1..] == a[1..] + b;
      CountAppend(a[1..], b, c);
    } else {
      assert a + b == b;
    }
  }

  /** Joining two strings with `c` adds one occurrence of `c`. */
  lemma CountJoin(a: string, b: string, c: char)
    ensures Count(a + [c] + b, c) == Count(a, c) + 1 + Count(b, c)
  {
    CountAppend(a, [c], c);
    CountAppend(a + [c], b, c);
  }

  /** The index of the first `c` in `s`, or `|s|` when there is none. */
  function IndexOf(s: string, c: char): (k: nat)
    ensures k <= |s|
    ensures forall i :: 0 <= i < k ==> s[i] != c
    ensures k < |s| ==> s[k] == c
  {
    if |s| == 0 then 0 else if s[0] == c then 0 else 1 + IndexOf(s[1..], c)
  }

  /** When `a` has no `c`, the first `c` of `a + [c] + b` is the one after `a`. */
  lemma IndexOfAfterFree(a: string, b: string, c: char)
    requires c !in a
    ensures IndexOf(a + [c] + b, c) == |a|
  {
    var x := a + [c] + b;
    var k := IndexOf(x, c);
    assert forall i :: 0 <= i < |a| ==> x[i] == a[i] && x[i] != c;
    assert x[|a|] == c;
  }

  /**
   * Splitting at the first separator: two strings that both consist of a
   * separator-free head, the separator and a tail agree on head and tail.
   */
  lemma SplitAtFirst(a: string, b: string, a': string, b': string, c: char)
    requires c !in a && c !in a'
    requires a + [c] + b == a' + [c] + b'
    ensures a == a' && b == b'
  {
    var x := a + [c] + b;
    IndexOfAfterFree(a, b, c);
    IndexOfAfterFree(a', b', c);
    assert a == x[..|a|];
    assert a' == x[..|a'|];
    assert b == x[|a| + 1..];
    assert b' == x[|a'| + 1..];
  }
  /** Length of the tail after the last `c` of `s` (all of `s` when it has none). */
  function TailLength(s: string, c: char): (k: nat)
    ensures k <= |s|
    ensures forall i :: |s| - k <= i < |s| ==> s[i] != c
    ensures k < |s| ==> s[|s| - 1 - k] == c
    decreases |s|
  {
    if |s| == 0 then 0 else if s[|s| - 1] == c then 0 else 1 + TailLength(s[..|s| - 1], c)
  }

  /** When `b` has no `c`, the last `c` of `a + [c] + b` is the one before `b`. */
  lemma TailLengthAfterFree(a: string, b: string, c: char)
    requires c !in b
    ensures TailLength(a + [c] + b, c) == |b|
  {
    var x := a + [c] + b;
    assert forall i :: |a| + 1 <= i < |x| ==> x[i] == b[i - |a| - 1] && x[i] != c;
    assert x[|a|] == c;
  }

  /**
   * Splitting at the last separator: two strings that both consist of a
   * head, the separator and a separator-free tail agree on head and tail.
   */
  lemma SplitAtLast(a: string, b: string, a': string, b': string, c: char)
    requires c !in b && c !in b'
    requires a + [c] + b == a' + [c] + b'
    ensures a == a' && b == b'
  {
    var x := a + [c] + b;
    TailLengthAfterFree(a, b, c);
    TailLengthAfterFree(a', b', c);
    assert a == x[..|a|];
    assert a' == x[..|a'|];
    assert b == x[|a| + 1..];
    assert b' == x[|a'| + 1..];
  }
}

=== FILE: wrappers.dfy ===
/** The optional value used wherever the integration reads `None` or a missing dictionary key. */
module Wrappers {

  datatype Option<+T> = None | Some(value: T) {

    /** The value, or `default` when absent (Python's `dict.get(key, default)`). */
    function GetOr(default: T): T {
      match this
      case Some(v) => v
      case None => default
    }
  }
}
